=== FILE: README.md ===
# django-auth0user, modelled in Dafny

django-auth0user keeps a local "shadow" user per site for every user of
an Auth0 identity provider. This project models the decision logic of its
four core pieces as pure functions over immutable data:

- `profiles.dfy` models the remote profile (`Profile` in `auth0user/models.py`). It covers the read-through cache keyed by `auth0user.userprofile.<id>`, name precedence and the write-back on save.
- `users.dfy` models the local user (`SiteUser`) and its manager (`SiteUserManager`). It covers user creation against the provider, the defaulting and checking of `create_user` and `create_superuser`, and the raw password remembered between `set_password` and `save`. It also covers `check_password`, names read through the profile, and the natural-key lookup.
- `middleware.dfy` models `auth0user_middleware`: whether connection parameters are attached, and the redirect host.
- `views.dfy` models `authenticate` and the login callback `alogin`. The callback covers the order of its checks and the token request of an authorization-code grant (section 4.1.3 of RFC 6749, sent as JSON). It also covers the user-info request and the login-or-deny outcome.
- `command.dfy` models the `createsuperuser` command. It covers the `--noinput` checks, the email, required-field and password prompt loops over a sequence of typed answers, and the final `create_superuser` call.
- `common.dfy` holds what these share:
  - Python values and truthiness, `dict.get` and `setdefault`, `str.strip`, `str.join` and `%s`;
  - the exceptions that escape;
  - the world outside: a cache map, an uninterpreted identity provider, and a log of calls.

In the models, the cache writes, the provider's fetches, get-or-create and
saves, the row writes and the password-change reports are appended, in
order, to an effect log in a `State`. This makes ordering claims
provable, such as "the row is saved before the password change is
reported" or "nothing here asks the provider to create a user". The kinds
of calls in a stretch of the log are constrained with `Within`. Cache
reads are not logged. The login view records its token, user-info and
session-login calls in its own `Views.Outcome.calls`. The command's lookup
of a provider user by email is a plain parameter and is not logged.

Some behaviour of the code differs from what its names and messages
suggest. The model follows the code:

- **Lookup key.** `get_by_natural_key` takes a parameter named `auth0_id` (models.py:173), but matches it against the `email` column, because `USERNAME_FIELD` is `'email'` (models.py:177, 212). So the login callback looks up the provider's `user_id` among emails (`Views.ExternalIdDoesNotLogIn`).
- **`--noinput`.** The command prints "--noinput does not create an auth0 user" (createsuperuser.py:197). It has already asked the provider to get or create the user, through `create_superuser` (`Command.NonInteractiveStillCreatesRemote`).
- **Name setter.** The getter's docstring (models.py:72-74) says a name set outside Auth0 takes precedence. Assigning `given_name` or `family_name` only writes `user_metadata`, so a top-level attribute of the same name, copied from the remote record, keeps winning on later reads (`Profiles.SetNameThenRead`).
- **Email loop.** The loop tests `email is None` (createsuperuser.py:109), so an answer that cleans to the empty string would leave it, and nothing would be created (`Command.BlankCleanedEmailCreatesNothing`). The command's own cleaner is a default `EmailField` (createsuperuser.py:16, 111), which refuses a blank answer, so only another cleaner reaches this path. The model's cleaner is a parameter.
- **`is_authenticated`.** `SiteUser.is_authenticated` is a property holding a plain `True` (models.py:254-260), but the middleware and the view call it (middleware.py:6, views.py:39). Under Django 1.x, which the `ForeignKey` without `on_delete` (models.py:203) requires, the call raises TypeError for a logged-in user (see Findings). The members for the middleware and the view model the evidently intended test.
- **Constructor keywords.** `_create_user` passes every remaining keyword to the model constructor (models.py:143). Django's constructor assigns `first_name` and `last_name` through the property setters (models.py:298-308), which load the profile. A keyword that is neither a field of the concrete model nor such a property is refused with TypeError. `is_superuser`, which both `create_user` and `create_superuser` pass, is not a field of the abstract `SiteUser`. Creation therefore succeeds only for a concrete model that adds it (`Users.NewLocalUser`).

## Model

| member | source | states |
|---|---|---|
| Profiles.CacheKeyRoundTrip | auth0user/models.py:49-51 | Every cache key starts with the fixed prefix `auth0user.userprofile.` and the id can be read back from it, so two ids share a key exactly when they are equal |
| Profiles.NewProfile | auth0user/models.py:35-47 | A profile keeps the record it was built from and all of the record's attributes. Without a record it has email `''` and empty metadata, so both names read as `''` |
| Profiles.GetProfile | auth0user/models.py:53-68 | A missing or empty id gives the empty profile (email `''`, empty metadata) and touches nothing. A cached record is used with no provider call. On a miss the provider is asked first; a record it returns is cached under the id's key with the configured time-out; a failed fetch gives the empty profile and leaves the cache unchanged. Only lookups and cache writes are logged, and no existing cache entry changes |
| Profiles.GetProfileAsWritten | auth0user/models.py:59-65 | As written, an uncached id whose fetch fails raises AttributeError (the `except` clause evaluates `cls.objects`), and every other input succeeds |
| Profiles.AsWrittenAgreesUnlessFetchFails | auth0user/models.py:53-68 | Wherever no failing fetch is involved, the code as written and the corrected reading return the same profile and state |
| Profiles.FailedFetchRaisesAsWritten | auth0user/models.py:60-65 | Concrete input: id `auth0\|42`, empty cache, provider without it. The code as written raises; the corrected reading gives the empty profile after one logged lookup |
| Profiles.SecondGetHitsCache | auth0user/models.py:57-62 | Read-through: right after a successful fetch, the same id is served from the cache with no further provider call and no change of state |
| Profiles.NameAttr | auth0user/models.py:70-90 | A name can be read exactly when `user_metadata` is a mapping. With neither a top-level attribute nor a metadata entry of that name it reads as `''` |
| Profiles.NamePrecedence | auth0user/models.py:70-90 | A name read returns the top-level attribute if there is one, else the `user_metadata` entry, else `''` |
| Profiles.SetNameAttr | auth0user/models.py:77-90 | Without a `user_metadata` attribute the setter raises AttributeError, and with one that is not a mapping, TypeError. Otherwise it adds the name to the metadata and keeps the remote record |
| Profiles.SetNameThenRead | auth0user/models.py:77-90 | The name setter succeeds exactly when `user_metadata` is a mapping. It changes only that entry of it, and a later read returns the new value only when no top-level attribute of that name exists |
| Profiles.CopyUpdatable | auth0user/models.py:93-99 | The copy loop keeps the record's id and updatable list. It sets each listed key the profile has a value for, skips the keys whose read raises, and leaves every other attribute as it was |
| Profiles.SaveProfile | auth0user/models.py:92-104 | Without a remote record a save does nothing. Otherwise the record, under its own id, is cached with the configured time-out and then saved remotely, in that order, and the profile's attributes are unchanged |
| Profiles.SaveProfileKinds | auth0user/models.py:100-104 | A profile save only writes the cache and updates the remote record |
| Profiles.SaveCopiesUpdatable | auth0user/models.py:93-99 | The saved record carries every updatable attribute the profile has a value for, and any attribute not in the updatable list keeps its old presence and value |
| Profiles.SaveThenGet | auth0user/models.py:92-104 | After a save, loading the same id serves the saved record from the cache without asking the provider |
| Users.LoadProfile | auth0user/models.py:321-328 | Corrected (Profile.get): An unloaded profile is loaded as `Profile.get(auth0_id)` with the configured time-out; a loaded one is reused with no further call. Loading changes nothing else about the user and only reads or writes the cache |
| Users.SetPassword | auth0user/models.py:262-265 | Corrected (Profile.get): `set_password` stores the hash of the raw value, remembers the raw value and mirrors it onto the profile's `password`, leaving every other profile attribute as it was. The identity, email, site and fields are unchanged |
| Users.SaveUserProfile | auth0user/models.py:236-237 | Corrected (Profile.get): Saving the user first saves its profile, loading it if need be: the user ends with the saved profile and the world after that save. A loaded profile's attributes are unchanged, and the save only reads, writes the cache or updates the remote record |
| Users.SaveUser | auth0user/models.py:236-241 | Corrected (Profile.get): A save first saves the profile exactly as `SaveUserProfile` does, then writes the row and reports the remembered password. It forgets the remembered raw password and keeps the identity, email, hash, site, fields and the profile's attributes. Its log ends with the row write, followed by the report of the remembered password if there was one; before that come only profile reads, cache writes and remote updates |
| Users.ReportComesLast | auth0user/models.py:236-241 | A log of that shape ends with the password report when a raw password was remembered and with the row write otherwise. Everything before the last entry only reads, writes the cache, updates the profile or writes the row |
| Users.SaveReportsPasswordOnce | auth0user/models.py:239-241 | A save reports a password change only for the remembered raw password, and only once, as its very last step |
| Users.SaveUserKinds | auth0user/models.py:236-241 | A save never asks the provider to create a user. With no remembered raw password it reports no password change |
| Users.CheckPassword | auth0user/models.py:267-277 | Corrected (Profile.get): The check succeeds exactly when a password is given, the stored hash is usable and the hasher verifies it. Only a correct password whose hash must be upgraded changes anything: the user then gets the new hash and no remembered raw password, and keeps its identity, email, site and fields |
| Users.UpgradeIsQuiet | auth0user/models.py:272-276 | A hash upgrade writes the row with the new hash, reports no password change and never asks the provider to create a user |
| Users.SetPasswordThenSave | auth0user/models.py:262-265 | Setting a password and then saving leaves no remembered raw password. The log ends with the row write of the new hash, then the report of exactly that raw password |
| Users.FullName | auth0user/models.py:314-315 | The full name never starts or ends with whitespace |
| Users.FullNameJoins | auth0user/models.py:310-315 | For trimmed names, the full name is first, one space, last. When either name is empty it is just the other name |
| Users.GetFullName | auth0user/models.py:310-315 | Corrected (Profile.get): The names come from the profile `LoadProfile` gives, and the user and world are left as that load leaves them. `get_full_name` is defined exactly when the profile's metadata can be read. It is then the full name of the given and family names read through the profile, and it is trimmed |
| Users.GetShortName | auth0user/models.py:317-319 | Corrected (Profile.get): `get_short_name` reads the profile `LoadProfile` gives, leaves the user and world as that load leaves them, and is defined exactly when the metadata can be read |
| Users.ShortNameWithoutFamilyName | auth0user/models.py:310-319 | With an empty family name, the full name is the short name stripped |
| Users.NaturalKey | auth0user/models.py:243-244 | A user's natural key is what a lookup compares a row against: exactly the rows with the user's email and site match it |
| Users.Filter | auth0user/models.py:173-177 | The filtered rows are exactly the stored rows with the given email and site, each with its multiplicity |
| Users.GetByEmail | auth0user/models.py:173-177 | A lookup by email and site finds nothing exactly when no stored row matches. It finds a row exactly when one row matches, and that row is a matching stored row. It fails with several matches exactly when two or more rows match |
| Users.GetByNaturalKey | auth0user/models.py:173-177 | A lookup by natural key finds nothing exactly when no stored row has that natural key (email, site). It finds a row exactly when one row has the key, and that row is a stored row with it. It fails with several matches exactly when two or more rows have the key |
| Users.NaturalKeyRoundTrip | auth0user/models.py:243-244 | A user that is the only row with its natural key (email, site) is found by `get_by_natural_key` on that key |
| Users.LookupIgnoresExternalId | auth0user/models.py:173-177 | Concrete input: the provider id of a user is not what the lookup compares, so a user whose `auth0_id` is the id looked up, but whose email differs, is not found |
| Users.ResolveRemote | auth0user/models.py:130-141 | A truthy supplied `auth0user` is used as is, and nothing is logged. Otherwise the provider's get-or-create is the only call, with the documented defaults. The outcome succeeds exactly when a remote user id results, and carries that id |
| Users.ConstructorSetter | auth0user/models.py:298-308 | A name keyword's setter succeeds exactly when the loaded profile's metadata is a mapping. A missing `user_metadata` ends as TypeError for an unexpected keyword, because Django's constructor swallows the AttributeError; a failure is always a TypeError |
| Users.SetNameKeywords | auth0user/models.py:298-308 | The `first_name` and `last_name` keywords succeed exactly when none is given or the metadata is a mapping. They then store the given values under `given_name` and `family_name` in the metadata, and keep the remote record |
| Users.NewLocalUser | auth0user/models.py:186-231 | Corrected (Profile.get): The constructor refuses a repeated `auth0_id` or `email`, and any keyword that is neither a field nor a name, with TypeError. Without a name keyword nothing is logged, and with one the profile is loaded and it succeeds exactly when there is no unknown keyword and the loaded metadata is a mapping. The row carries the id, the email, the `site_id` keyword (default SITE_ID) and the other fields, and nothing remembered |
| Users.NamesReachProfile | auth0user/models.py:143 | Names given to the constructor are in the new user's profile metadata, where the getters find them |
| Users.BuildAndSave | auth0user/models.py:143-145 | Corrected (Profile.get): The row is built exactly when the constructor accepts the keywords, and a refused keyword is a TypeError with nothing saved. A built row carries the remote user id, the email, the hash of the password, the site from `site_id` (default SITE_ID) and the accepted fields, and no remembered raw password |
| Users.BuildAndSaveKeepsNames | auth0user/models.py:143-145 | Names given as keywords are still in the profile metadata after the password is set and the user saved |
| Users.BuildAndSaveKinds | auth0user/models.py:143-145 | Building and saving the row never asks the provider to create a user |
| Users.BuildAndSaveReportsLast | auth0user/models.py:144-145 | A given password is reported as changed as the very last step of building the row |
| Users.CreateUserCore | auth0user/models.py:117-146 | Corrected (Profile.get): An empty email raises ValueError before anything happens. A created user means a remote user id was obtained and every keyword was accepted. With a remote id and acceptable keywords and no name keyword, creation succeeds, and an unacceptable keyword is a TypeError. The user carries the remote id, the email, the hashed password, the site and the fields left after `auth0user` and `email_verified` are popped |
| Users.CreateWithSuppliedRemote | auth0user/models.py:130-133 | With a truthy supplied `auth0user`, creation never asks the provider to create a user |
| Users.CreateAsksProviderFirst | auth0user/models.py:132-141 | Without one, the first call is the provider's get-or-create for the email. Its defaults are `email_verified` (default False), the password, and given and family name from `first_name` and `last_name` (default `''`) |
| Users.CreateReportsPasswordLast | auth0user/models.py:143-146 | A created user's password is reported as changed as the very last step |
| Users.UserDefaults | auth0user/models.py:156-158 | `create_user` adds `is_staff` and `is_superuser` (default False) and `site_id` (default SITE_ID, else 1), keeping every value the caller gave |
| Users.CreateUser | auth0user/models.py:148-159 | Corrected (Profile.get): An empty email is refused with nothing done. Any other email goes to `_create_user` with the defaulted keywords, and its outcome is the outcome of `create_user`. A created user has the email, the hash of the password, the flags the caller gave (default False) and the caller's site (default SITE_ID) |
| Users.SuperuserDefaults | auth0user/models.py:162-165 | `create_superuser` adds `is_staff` and `is_superuser` (default True), `site_id` (default SITE_ID) and `email_verified` (default True), keeping every value the caller gave |
| Users.CreateSuperuser | auth0user/models.py:161-171 | Corrected (Profile.get): A flag that is not exactly True (an explicit False, 1 or None included) raises the matching ValueError before anything happens; `is_staff` is checked first. With both flags True the outcome is that of `_create_user` with the defaulted keywords. A created superuser has the hash of the password, both flags True and the caller's site (default SITE_ID) |
| Users.SuperuserRemoteDefaults | auth0user/models.py:161-171 | Without a supplied remote record, `create_superuser` first asks the provider to get or create the user. It marks the email verified unless the caller said otherwise, and passes the password |
| Middleware.RedirectHostRoundTrip | auth0user/middleware.py:7 | The redirect host is exactly scheme, `://`, host: for a scheme without a colon, both parts can be read back from it |
| Middleware.Decorate | auth0user/middleware.py:6-12 | Corrected (is_authenticated): only an unauthenticated request gets `auth0`, holding the configured client id and domain and the request's own redirect host. Nothing else about the request changes, and an authenticated one is left as it is |
| Middleware.ConnectionMiddleware | auth0user/middleware.py:4-15 | Corrected (is_authenticated): the handler is called exactly once, and its response is returned unchanged. Only an unauthenticated request gets `auth0`, holding the configured client id and domain and the request's own redirect host. Nothing else about the request changes, and an authenticated one passes through untouched |
| Middleware.AttachedIffUnauthenticated | auth0user/middleware.py:6-12 | For a request arriving without parameters, the handler sees them exactly when the user is not authenticated |
| Middleware.ConnectionMiddlewareAsWritten | auth0user/middleware.py:4-15 | As written: a request whose user is authenticated raises TypeError from calling `True`, and the handler is never called. An anonymous request gets the parameters and is handed on once |
| Middleware.MiddlewareAgreesWhenAnonymous | auth0user/middleware.py:6-13 | For an anonymous user the middleware as written forwards the same request and returns the same response as the corrected one |
| Views.TryBackends | auth0user/views.py:17-26 | The backend loop raises exactly when there is a backend and several rows match. A user is returned exactly when the lookup finds one and some backend accepts it, annotated with the path of the first backend that does |
| Views.Authenticate | auth0user/views.py:13-26 | An empty backend list raises ImproperlyConfigured, as Django's `_get_backends` does. Otherwise the lookup raises exactly when several rows match. A user is returned exactly when the lookup finds one and some backend accepts it, annotated with the path of the first backend that does |
| Views.FirstBackendWins | auth0user/views.py:17-24 | A found user is authenticated by the first backend that accepts it, whatever later backends say |
| Views.BuildTokenRequest | auth0user/views.py:42-51 | The token request is a JSON POST to the domain's `/oauth/token`. Its body carries exactly `client_id`, `client_secret`, `redirect_uri` (redirect host plus callback path), `code` and `grant_type=authorization_code`, with the code untouched |
| Views.Login | auth0user/views.py:29-64 | Corrected (is_authenticated): without a code, the visitor goes to the admin login page with the current path, whether authenticated or not, and nobody is contacted. An authenticated visitor with a code is redirected to `state` (default: the admin index) with no call. Otherwise the first call is the token exchange for the code. Missing middleware parameters fail before any call. The view ends with KeyError after the exchange exactly when the token answer lacks `access_token`. The session is logged in only as the third and last call, and only on success |
| Views.LoginAsWritten | auth0user/views.py:35-40 | As written: with a code and an authenticated user the view raises TypeError before contacting anyone. In every other case it is the corrected view |
| Views.AuthenticatedCallbackRaisesAsWritten | auth0user/views.py:39 | For a callback with a code from a logged-in user, the middleware as written raises TypeError and never reaches the view, and the view raises it too. Corrected, the request passes untouched and the view redirects to `state` with no call |
| Views.LoginLogsInAuthenticatedUser | auth0user/views.py:55-64 | After the exchange, the user-info URL carries the access token. Exactly the user `authenticate` returns for the provider's `user_id` is logged in, followed by a redirect to `state` (default: the admin index). If nobody is returned, permission is denied after two calls. An error of `authenticate` (several matching rows, no backends) escapes the view after two calls |
| Views.CallbackRedirectsToRequestHost | auth0user/views.py:44-51 | Behind the middleware, an unauthenticated callback's token request names the request's own scheme and host followed by the callback path as `redirect_uri` |
| Views.ExternalIdDoesNotLogIn | auth0user/views.py:55-64 | Concrete input: with backends configured, a local user whose `auth0_id` is the provider's `user_id` is still denied, because the lookup compares emails |
| Command.GetInputData | auth0user/management/commands/createsuperuser.py:199-213 | Exactly one answer is consumed. A cleaned value is returned with nothing written; a cleaning failure returns None and writes one `Error:` line with the messages joined by `; `. Running out of answers raises EOFError |
| Command.AnswerCleanedAsTyped | auth0user/management/commands/createsuperuser.py:111 | The prompts pass no default, so each answer, an empty one included, is cleaned as typed: a valid one is returned as cleaned with nothing written, and an invalid one gives None and one line |
| Command.EmailPrompt | auth0user/management/commands/createsuperuser.py:109-135 | The loop stops at the first answer that fails neither cleaning nor the "already taken on this site" check, and consumes exactly the answers up to it. An empty cleaned email leaves with no email. A new address is returned with the provider user found for it, if any; running out of answers raises EOFError |
| Command.EmailPromptReportsEachRejection | auth0user/management/commands/createsuperuser.py:109-135 | Every answer the loop turns down is reported on exactly one line, plus one warning when the provider already has the user |
| Command.FieldPrompt | auth0user/management/commands/createsuperuser.py:139-149 | A required field is asked for until an answer cleans to a value. That answer's value is returned and the answers up to it consumed |
| Command.RequiredFieldsPrompt | auth0user/management/commands/createsuperuser.py:136-153 | Every required field ends up with a non-None value. Fields given on the command line are taken as given, and only the others are prompted for; earlier values are kept. The prompts only read answers from the front, leaving the rest unread |
| Command.PasswordLoop | auth0user/management/commands/createsuperuser.py:156-175 | From a given pair on, the loop returns the first accepted pair's password and consumes exactly the pairs up to it, writing one line per rejected pair |
| Command.PasswordPrompt | auth0user/management/commands/createsuperuser.py:156-175 | The password prompt returns the first accepted pair's password with one error line per rejected pair before it, or raises EOFError when the answers run out |
| Command.AcceptedPasswordIsSound | auth0user/management/commands/createsuperuser.py:159-175 | An accepted password was typed the same twice, is not blank after stripping, and passed every validator |
| Command.PasswordWasTyped | auth0user/management/commands/createsuperuser.py:156-175 | The password accepted from the answers left after the earlier prompts is a pair of the whole answer sequence, at a position after every answer read before: a password followed by the same confirmation, accepted by the prompt |
| Command.NonInteractiveFields | auth0user/management/commands/createsuperuser.py:88-95 | `--noinput` succeeds exactly when every required field has a non-empty option that cleans. The values are then the cleaned options. Otherwise the first field in order without a usable option decides the CommandError: it names a missing or empty option, or joins the clean's messages |
| Command.SuperuserFields | auth0user/management/commands/createsuperuser.py:41-45 | Corrected: the keyword fields carry the `--site` option as `site_id` and otherwise equal the fields as written |
| Command.CreateStep | auth0user/management/commands/createsuperuser.py:188-197 | Corrected (site, Profile.get): nothing is created without a non-empty email. With one, the step ends exactly as `create_superuser` on the gathered fields and the `--site` site does: the same world, and success or the same error. A created superuser has that email, the hash of the given password, the `--site` site and both flags True, and the success lines follow according to verbosity and mode |
| Command.HandleNoInput | auth0user/management/commands/createsuperuser.py:83-95 | Corrected (site, Profile.get): without a terminal, a missing email or an unusable required field fails before anything is created, and no answers are read. A success creates a superuser with the given email, the unusable password `make_password(None)` and the `--site` site |
| Command.HandlePrompted | auth0user/management/commands/createsuperuser.py:102-175 | Corrected (site, Profile.get): after the prompts, a created superuser has the `--site` site and both flags True. Its email is `--email` when given, else the cleaned answer that ended the email loop. Its password is the hash of an answer typed at some position after the email answers, followed by the same answer as confirmation. The prompt accepted that pair: not blank and passed by the validators |
| Command.Handle | auth0user/management/commands/createsuperuser.py:71-197 | Corrected (site, Profile.get): `--noinput` without an email fails at once. Without a terminal the prompts are skipped with a notice, yet an `--email` still creates the superuser. Any created superuser has the `--site` site and both flags True. Without prompts its password is `make_password(None)`. At a terminal its email is `--email` or the accepted email answer, and its password the hash of an answer typed twice in a row after the email answers and accepted by the password prompt |
| Command.CreateWithKnownRemote | auth0user/management/commands/createsuperuser.py:188-193 | A provider user found at the email prompt is passed on, so the superuser carries its id and the provider is never asked to create one |
| Command.CreateFromOptionsCallsProvider | auth0user/management/commands/createsuperuser.py:188-197 | Creating from bare options first asks the provider to get or create the user by email. A success prints the created message and the `--noinput` warning |
| Command.NonInteractiveStillCreatesRemote | auth0user/management/commands/createsuperuser.py:83-97 | Under `--noinput` the command still calls the provider's get-or-create, although it then prints that it does not |
| Command.KnownRemoteUserIsReused | auth0user/management/commands/createsuperuser.py:129-135 | End to end: when the provider already has the new email's user, the superuser is tied to it with that email and no provider creation happens |
| Command.BlankCleanedEmailCreatesNothing | auth0user/management/commands/createsuperuser.py:109-113 | For a cleaner that can give `''`, an answer that cleans to `''` leaves the email loop, the password prompt still runs, and nothing is created or changed. The command's default `EmailField` refuses a blank answer, so it never gives `''` |
| Command.SiteOptionIgnoredAsWritten | auth0user/management/commands/createsuperuser.py:188-193 | As written, a superuser meant for a site other than SITE_ID lands on SITE_ID |
| Command.SiteOptionHonoured | auth0user/management/commands/createsuperuser.py:41-45 | Corrected: a created superuser lands on the site the `--site` option names |

## Left out

- The provider's HTTP API (`auth0plus`, `requests`) and its JSON decoding are uninterpreted functions. A provider error or "does not exist" becomes `None`, and transport and decoding failures of the token and user-info requests are not modelled.
- The cache time-out is stored with each entry but never expires. Every cached record counts as truthy, because records always are in this model.
- Django's ORM is a sequence of rows, and a row write is a log entry. These are not modelled: `--database` / `db_manager`, `save(using=...)`, `update_fields`, `unique_together`, timestamps and `is_active`.
- Password hashing (`make_password`, the hasher's verify and upgrade decision, `is_password_usable`) is a parameter. `password_changed` is a logged effect, and `validate_password` is a function returning its messages.
- Terminal handling is left out: `getpass`, `input`, prompt texts, `KeyboardInterrupt` / `sys.exit(1)`, and argparse. End of input is modelled as EOFError.
- The foreign-key wrapping of prompted values (`remote_field`, `fake_user_data`) is left out. `SiteUser.REQUIRED_FIELDS` is empty, so no field of this model takes that path.
- The command's provider lookup by email (`auth0.users.get`) is a parameter and is not logged as an effect.
- `--site` values are compared as given. The command-line string is not coerced to the integer site id.
- `Common.Display` renders a mapping or a remote record as a fixed placeholder instead of Python's `repr`.
- `get_by_natural_key` uses `settings.SITE_ID` as its default site. The model uses the same `getattr(settings, 'SITE_ID', 1)` fallback as the creation paths.
- The middleware assumes the request has a user, as Django's authentication middleware guarantees. `getattr(request, 'user')` raising or being falsy is not modelled.
- These `SiteUser` methods are not modelled:
  - `get_username` and `__str__` (they are the email);
  - `is_anonymous` (a constant). `is_authenticated` is read as `Request.authenticated`, and its as-written call is a Finding;
  - `set_unusable_password`, `has_usable_password` and `get_session_auth_hash` (hashing calls);
  - `email_user` (mail I/O);
  - `change_email`, whose intended behaviour its code does not settle.
- The model constructor is modelled only as far as the keywords of this model go.
  - A `site` keyword is kept as a plain field value. It is not checked to be a `Site`.
  - The TypeError messages are generic and do not name the refused keyword.
  - `email` and `password` cannot reach `**extra_fields` in Python, so their clashes are not modelled.
  - Field values are not cleaned or coerced by their field types.
  - `Env.modelFields` stands for the fields a concrete subclass adds (the abstract model declares none of them, not even `is_superuser`).
- URL reversing and `request.resolver_match` are left out: the admin index, admin login and callback paths are parameters. Sessions are left out too: `login` is a logged call. The `state` redirect target is taken as given.
- Users.GetShortName: states which profile is read (the one `LoadProfile` gives) and when the name is defined. What the name is comes from `Users.ShortNameWithoutFamilyName` and `Profiles.NamePrecedence`, not from its own contract.
- Users.LoadProfile: the `profile` property (auth0user/models.py:321-328) loads through the corrected `Profile.get`, so a failed fetch gives the empty profile. As written it raises AttributeError (models.py:63). That error would escape `set_password`, `check_password`, `save`, `get_full_name`, `get_short_name` and `_create_user`, and in the constructor's name setters Django would turn it into TypeError. The rows marked "Corrected (Profile.get)" inherit this reading and do not promise the as-written failure.
- Profiles.SaveProfile: the remote `save()` of a fetched record (auth0user/models.py:104) always succeeds. A failing remote save would escape after the cache write and before the row write in `SiteUser.save`, and the model does not say so.
- Users.CreateUserCore: its log facts are stated by `Users.CreateWithSuppliedRemote`, `Users.CreateAsksProviderFirst` and `Users.CreateReportsPasswordLast` rather than in its own contract.

## Findings

| source | as written | input that shows it | evidently intended | confidence | as-written member | corrected member |
|---|---|---|---|---|---|---|
| auth0user/models.py:63 | The `except` clause of `Profile.get` names `cls.objects`, which `Profile` does not define. Evaluating it on a failed fetch raises AttributeError instead of catching the provider error | id `auth0\|42`, not cached, provider raising for it | A failed fetch is logged and yields the empty profile, with the cache unchanged | not executed | Profiles.FailedFetchRaisesAsWritten | Profiles.GetProfile, Users.LoadProfile |
| auth0user/management/commands/createsuperuser.py:188-193 | The `--site` option (lines 41-45) only scopes the "already taken" check. It is never passed to `create_superuser`, so the superuser gets SITE_ID | `--site 2` with SITE_ID 1 and a new email | The superuser is created on the site the option names | not executed | Command.SiteOptionIgnoredAsWritten | Command.SiteOptionHonoured, Command.CreateStep, Command.HandleNoInput, Command.HandlePrompted, Command.Handle |
| auth0user/middleware.py:6 | `request.user.is_authenticated()` (also views.py:39) calls the property `SiteUser.is_authenticated`, which holds a plain `True` (models.py:254-260). Under Django 1.x, which the `ForeignKey` without `on_delete` (models.py:203) requires, this raises TypeError: 'bool' object is not callable | A callback request with a code from a logged-in `SiteUser` | An authenticated request passes the middleware untouched, and the view redirects to `state` without contacting anyone | not executed | Views.AuthenticatedCallbackRaisesAsWritten | Middleware.ConnectionMiddleware, Middleware.Decorate, Views.Login |

=== FILE: command.dfy ===
/** The `createsuperuser` management command in
    auth0user/management/commands/createsuperuser.py: option checks without
    a terminal, the email, required-field and password prompts with one,
    and the final call to `create_superuser`. */
module Command {
  import opened Common
  import opened Users

  /** A line written to the command's standard output or standard error. */
  datatype Line = Stdout(text: string) | Stderr(text: string)

  /** The answers still to be typed at the prompts, in order, and what the
      command has written so far. `input` and `getpass` both read the next
      answer; running out of answers raises `EOFError`. */
  datatype Console = Console(answers: seq<string>, out: seq<Line>)

  /** The outcome of one part of the command together with the console after it. */
  datatype Run<+T> = Run(result: Result<T>, console: Console)

  /** What a field's `clean` does with a raw value: the cleaned value, or the
      messages of the `ValidationError` it raises. */
  datatype Cleaned<+T> = Valid(value: T) | Invalid(messages: seq<string>)

  /** The command line: `--email`, `--site`, `--noinput`, `--verbosity` and one
      option per required field (absent when not given). */
  datatype Options = Options(
    email: Option<string>,
    siteId: Value,
    interactive: bool,
    fieldOptions: map<string, string>,
    verbosity: int)

  /** What the command consults besides its options: whether standard input
      may be a terminal, the user model's required fields, the email field's
      and the other fields' `clean`, `validate_password` (its messages; none
      when the password is accepted) and the provider's lookup by email. */
  datatype Prompts = Prompts(
    isTty: bool,
    requiredFields: seq<string>,
    cleanEmail: string -> Cleaned<string>,
    cleanField: (string, string) -> Cleaned<Value>,
    validate: (string, map<string, Value>) -> seq<string>,
    remoteByEmail: string -> Option<RemoteUser>)

  /** `SiteUser.REQUIRED_FIELDS`. */
  const SiteUserRequiredFields: seq<string> := []

  const SkipMessage := "Superuser creation skipped due to not running in a TTY. You can run `manage.py createsuperuser` in your project to create one manually."
  const TakenMessage := "Error: That email address is already taken."
  const RemoteExistsMessage := "Warning: An Auth0 user with that email address has already been created."
  const MismatchMessage := "Error: Your passwords didn't match."
  const BlankMessage := "Error: Blank passwords aren't allowed."
  const CreatedMessage := "Superuser created successfully."
  const NoRemoteMessage := "Warning: --noinput does not create an auth0 user"

  /** Whether `rest` is what remains of `answers` once some were read. */
  predicate LeftOf(rest: seq<string>, answers: seq<string>)
  {
    |rest| <= |answers| && rest == answers[|answers| - |rest|..]
  }

  /** What is left after reading from what was left is left of the whole. */
  lemma LeftOfTrans(a: seq<string>, b: seq<string>, c: seq<string>)
    requires LeftOf(a, b) && LeftOf(b, c)
    ensures LeftOf(a, c)
  {
    var d := |c| - |b|;
    forall i | 0 <= i < |a|
      ensures a[i] == c[|c| - |a| + i]
    {
      assert a[i] == b[|b| - |a| + i];
      assert b[|b| - |a| + i] == c[d + |b| - |a| + i];
    }
  }

  /** Dropping a prefix leaves the rest. */
  lemma DropLeftOf(a: seq<string>, n: nat)
    requires n <= |a|
    ensures LeftOf(a[n..], a)
  {
  }

  // ---------------------------------------------------------------------------
  // get_input_data
  // ---------------------------------------------------------------------------

  /** The raw value `get_input_data` cleans: a truthy default replaces an empty answer. */
  function Substitute(default: Option<string>, raw: string): string
  {
    if default.Some? && default.value != "" && raw == "" then default.value else raw
  }

  /** `get_input_data(field, message, default)`: read one answer, substitute
      the default for an empty one, clean it; a validation failure is reported
      as one "Error: " line with its messages joined by "; ", and yields `None`. */
  function GetInputData<T>(c: Console, clean: string -> Cleaned<T>, default: Option<string>): (r: Run<Option<T>>)
    ensures c.answers == [] ==> r == Run(Err(EOFError), c)
    ensures c.answers != [] ==>
      var cleaned := clean(Substitute(default, c.answers[0]));
      && r.console.answers == c.answers[1..]
      && (cleaned.Valid? ==> r.result == Ok(Some(cleaned.value)) && r.console.out == c.out)
      && (cleaned.Invalid? ==>
            r.result == Ok(None)
            && r.console.out == c.out + [Stderr("Error: " + Join(cleaned.messages, "; "))])
  {
    if c.answers == [] then Run(Err(EOFError), c)
    else
      var rest := Console(c.answers[1..], c.out);
      match clean(Substitute(default, c.answers[0]))
      case Valid(v) => Run(Ok(Some(v)), rest)
      case Invalid(msgs) => Run(Ok(None), rest.(out := c.out + [Stderr("Error: " + Join(msgs, "; "))]))
  }

  /** The prompts call `get_input_data` without a default, so each answer,
      an empty one included, is cleaned exactly as typed: a valid answer is
      returned as cleaned, an invalid one yields `None` and one error line. */
  lemma AnswerCleanedAsTyped<T>(c: Console, clean: string -> Cleaned<T>)
    requires c.answers != []
    ensures var r := GetInputData(c, clean, None);
      && r.console.answers == c.answers[1..]
      && (clean(c.answers[0]).Valid? ==> r.result == Ok(Some(clean(c.answers[0]).value)) && r.console.out == c.out)
      && (clean(c.answers[0]).Invalid? ==> r.result == Ok(None) && |r.console.out| == |c.out| + 1)
  {
  }

  // ---------------------------------------------------------------------------
  // The email prompt
  // ---------------------------------------------------------------------------

  /** Whether the email loop stops after reading `raw`: the answer cleans, and
      is empty or not yet taken on the site. */
  predicate EndsEmailLoop(p: Prompts, store: seq<LocalUser>, site: Value, raw: string)
  {
    var cleaned := p.cleanEmail(raw);
    cleaned.Valid? && (cleaned.value == "" || !GetByEmail(store, Str(cleaned.value), site).Found?)
  }

  /** The index of the first answer that ends the email loop, or `|answers|`. */
  function FirstEmailAnswer(p: Prompts, store: seq<LocalUser>, site: Value, answers: seq<string>): (k: nat)
    ensures k <= |answers|
    ensures forall j | 0 <= j < k :: !EndsEmailLoop(p, store, site, answers[j])
    ensures k < |answers| ==> EndsEmailLoop(p, store, site, answers[k])
  {
    if answers == [] then 0
    else if EndsEmailLoop(p, store, site, answers[0]) then 0
    else 1 + FirstEmailAnswer(p, store, site, answers[1..])
  }

  /** The email loop `while email is None`: an answer that fails to clean is
      reported and asked again; one already taken on the site is reported and
      asked again; an empty cleaned answer leaves the loop as it is. For a new
      address the provider is asked for an existing user with it, and a found
      one is reported and kept. */
  function EmailPrompt(c: Console, p: Prompts, store: seq<LocalUser>, site: Value)
    : (r: Run<(string, Option<RemoteUser>)>)
    ensures c.out <= r.console.out
    ensures var k := FirstEmailAnswer(p, store, site, c.answers);
      && (k == |c.answers| ==> r.result == Err(EOFError) && r.console.answers == [])
      && (k < |c.answers| ==>
            var e := p.cleanEmail(c.answers[k]).value;
            && r.console.answers == c.answers[k + 1..]
            && (e == "" ==> r.result == Ok(("", None)))
            && (e != "" && GetByEmail(store, Str(e), site).MultipleFound? ==> r.result == Err(MultipleObjectsReturned))
            && (e != "" && GetByEmail(store, Str(e), site).DoesNotExist? ==> r.result == Ok((e, p.remoteByEmail(e)))))
    decreases |c.answers|
  {
    var got := GetInputData(c, p.cleanEmail, None);
    var c1 := got.console;
    match got.result
    case Err(e) => Run(Err(e), c1)
    case Ok(None) =>
      assert FirstEmailAnswer(p, store, site, c.answers) == 1 + FirstEmailAnswer(p, store, site, c1.answers);
      EmailPrompt(c1, p, store, site)
    case Ok(Some(email)) =>
      if email == "" then Run(Ok(("", None)), c1)
      else
        match GetByEmail(store, Str(email), site)
        case Found(_) =>
          assert FirstEmailAnswer(p, store, site, c.answers) == 1 + FirstEmailAnswer(p, store, site, c1.answers);
          EmailPrompt(c1.(out := c1.out + [Stderr(TakenMessage)]), p, store, site)
        case MultipleFound => Run(Err(MultipleObjectsReturned), c1)
        case DoesNotExist =>
          var remote := p.remoteByEmail(email);
          Run(Ok((email, remote)), if remote.Some? then c1.(out := c1.out + [Stderr(RemoteExistsMessage)]) else c1)
  }

  /** The email loop reads answers from the front only. */
  lemma EmailPromptLeavesRest(c: Console, p: Prompts, store: seq<LocalUser>, site: Value)
    ensures LeftOf(EmailPrompt(c, p, store, site).console.answers, c.answers)
  {
    var k := FirstEmailAnswer(p, store, site, c.answers);
    if k < |c.answers| {
      DropLeftOf(c.answers, k + 1);
    } else {
      DropLeftOf(c.answers, |c.answers|);
    }
  }

  /** Every answer the email loop turns down is reported on exactly one line. */
  lemma {:induction false} EmailPromptReportsEachRejection(c: Console, p: Prompts, store: seq<LocalUser>, site: Value)
    requires FirstEmailAnswer(p, store, site, c.answers) < |c.answers|
    ensures var r := EmailPrompt(c, p, store, site);
      var k := FirstEmailAnswer(p, store, site, c.answers);
      |r.console.out| == |c.out| + k + (if r.result.Ok? && r.result.value.1.Some? then 1 else 0)
    decreases |c.answers|
  {
    var k := FirstEmailAnswer(p, store, site, c.answers);
    if k > 0 {
      var got := GetInputData(c, p.cleanEmail, None);
      var c1 := got.console;
      assert c1.answers == c.answers[1..];
      assert FirstEmailAnswer(p, store, site, c1.answers) == k - 1;
      if got.result == Ok(None) {
        assert |c1.out| == |c.out| + 1;
        EmailPromptReportsEachRejection(c1, p, store, site);
      } else {
        var c2 := c1.(out := c1.out + [Stderr(TakenMessage)]);
        EmailPromptReportsEachRejection(c2, p, store, site);
      }
    }
  }

  // ---------------------------------------------------------------------------
  // The required-field prompts
  // ---------------------------------------------------------------------------

  /** Whether answer `raw` gives the required field `name` a value. */
  predicate FillsField(p: Prompts, name: string, raw: string)
  {
    var cleaned := p.cleanField(name, raw);
    cleaned.Valid? && cleaned.value != Null
  }

  /** The index of the first answer that gives field `name` a value, or `|answers|`. */
  function FirstFieldAnswer(p: Prompts, name: string, answers: seq<string>): (k: nat)
    ensures k <= |answers|
    ensures forall j | 0 <= j < k :: !FillsField(p, name, answers[j])
    ensures k < |answers| ==> FillsField(p, name, answers[k])
  {
    if answers == [] then 0
    else if FillsField(p, name, answers[0]) then 0
    else 1 + FirstFieldAnswer(p, name, answers[1..])
  }

  /** `while user_data[field_name] is None`: ask for the field until an answer
      cleans to a value. */
  function FieldPrompt(c: Console, p: Prompts, name: string): (r: Run<Value>)
    ensures c.out <= r.console.out
    ensures var k := FirstFieldAnswer(p, name, c.answers);
      && (k == |c.answers| ==> r.result == Err(EOFError) && r.console.answers == [])
      && (k < |c.answers| ==>
            && r.result == Ok(p.cleanField(name, c.answers[k]).value)
            && r.console.answers == c.answers[k + 1..])
    decreases |c.answers|
  {
    var got := GetInputData(c, (raw: string) => p.cleanField(name, raw), None);
    match got.result
    case Err(e) => Run(Err(e), got.console)
    case Ok(Some(v)) =>
      if v != Null then Run(Ok(v), got.console) else FieldPrompt(got.console, p, name)
    case Ok(None) => FieldPrompt(got.console, p, name)
  }

  /** The values collected for the required fields, and the subset typed at
      the prompts (what the password validator gets to see). */
  datatype FieldData = FieldData(userData: map<string, Value>, prompted: map<string, Value>)

  /** The required-field loop: a field given on the command line is taken as
      given; any other one is prompted for. */
  function RequiredFieldsPrompt(c: Console, p: Prompts, fields: seq<string>, options: map<string, string>, acc: FieldData)
    : (r: Run<FieldData>)
    ensures c.out <= r.console.out
    ensures r.result.Ok? ==>
      && (forall f :: f in r.result.value.userData <==> f in acc.userData || f in fields)
      && (forall f | f in fields :: f in r.result.value.userData && r.result.value.userData[f] != Null)
      && (forall f | f in fields && f in options :: f in r.result.value.userData && r.result.value.userData[f] == Str(options[f]))
      && (forall f | f in acc.userData && f !in fields :: f in r.result.value.userData && r.result.value.userData[f] == acc.userData[f])
      && r.result.value.prompted.Keys <= acc.prompted.Keys + set f | f in fields && f !in options
    ensures LeftOf(r.console.answers, c.answers)
    decreases |fields|
  {
    if fields == [] then Run(Ok(acc), c)
    else
      var f := fields[0];
      if f in options then
        RequiredFieldsPrompt(c, p, fields[1..], options, acc.(userData := acc.userData[f := Str(options[f])]))
      else
        var got := FieldPrompt(c, p, f);
        assert LeftOf(got.console.answers, c.answers);
        match got.result
        case Err(e) => Run(Err(e), got.console)
        case Ok(v) =>
          var r := RequiredFieldsPrompt(got.console, p, fields[1..], options,
                                        FieldData(acc.userData[f := v], acc.prompted[f := v]));
          LeftOfTrans(r.console.answers, got.console.answers, c.answers);
          r
  }

  // ---------------------------------------------------------------------------
  // The password prompt
  // ---------------------------------------------------------------------------

  /** Whether a password and its confirmation are accepted: they match, the
      password is not blank, and the validators have nothing to say. */
  predicate PasswordAccepted(p: Prompts, prompted: map<string, Value>, p1: string, p2: string)
  {
    p1 == p2 && Strip(p1) != "" && p.validate(p2, prompted) == []
  }

  /** Whether answers `i` and `i + 1` are a password and confirmation the
      prompt accepts. */
  predicate AcceptedAt(p: Prompts, prompted: map<string, Value>, answers: seq<string>, i: nat)
  {
    i + 1 < |answers| && PasswordAccepted(p, prompted, answers[i], answers[i + 1])
  }

  /** Whether `pw` is a password typed, with its confirmation, at some
      position from `from` on of `answers`, where the prompt accepted it
      against some prompted field values. */
  ghost predicate PasswordTyped(p: Prompts, answers: seq<string>, from: nat, pw: string)
  {
    exists i: nat, prompted :: from <= i && AcceptedAt(p, prompted, answers, i) && answers[i] == pw
  }

  /** The first pair, counting from pair `j`, that is accepted: pair `m` is
      answers `2m` and `2m + 1`. When none is, the pair at which the answers
      run out. */
  function FirstAcceptedPair(p: Prompts, prompted: map<string, Value>, answers: seq<string>, j: nat): (k: nat)
    requires 2 * j <= |answers|
    ensures j <= k && 2 * k <= |answers|
    ensures forall m | j <= m < k :: !PasswordAccepted(p, prompted, answers[2 * m], answers[2 * m + 1])
    ensures 2 * k + 1 < |answers| ==> PasswordAccepted(p, prompted, answers[2 * k], answers[2 * k + 1])
    decreases |answers| - 2 * j
  {
    if 2 * j + 1 >= |answers| then j
    else if PasswordAccepted(p, prompted, answers[2 * j], answers[2 * j + 1]) then j
    else FirstAcceptedPair(p, prompted, answers, j + 1)
  }

  /** The one line reported for a turned-down pair. */
  function PasswordComplaint(p: Prompts, prompted: map<string, Value>, p1: string, p2: string): string
  {
    if p1 != p2 then MismatchMessage
    else if Strip(p1) == "" then BlankMessage
    else Join(p.validate(p2, prompted), "\n")
  }

  /** The password loop from pair `j` on, writing below `out`. */
  function PasswordLoop(answers: seq<string>, out: seq<Line>, p: Prompts, prompted: map<string, Value>, j: nat)
    : (r: Run<string>)
    requires 2 * j <= |answers|
    ensures var k := FirstAcceptedPair(p, prompted, answers, j);
      && |r.console.out| == |out| + (k - j)
      && out <= r.console.out
      && (2 * k + 1 < |answers| ==>
            r.result == Ok(answers[2 * k]) && r.console.answers == answers[2 * k + 2..])
      && (2 * k + 1 >= |answers| ==> r.result == Err(EOFError) && r.console.answers == [])
    decreases |answers| - 2 * j
  {
    if 2 * j + 1 >= |answers| then Run(Err(EOFError), Console([], out))
    else
      var p1, p2 := answers[2 * j], answers[2 * j + 1];
      if PasswordAccepted(p, prompted, p1, p2) then Run(Ok(p1), Console(answers[2 * j + 2..], out))
      else PasswordLoop(answers, out + [Stderr(PasswordComplaint(p, prompted, p1, p2))], p, prompted, j + 1)
  }

  /** The password loop `while password is None`: read a password and its
      confirmation; a mismatch, a blank password or validator messages are
      reported on one line and both are asked again. */
  function PasswordPrompt(c: Console, p: Prompts, prompted: map<string, Value>): (r: Run<string>)
    ensures var k := FirstAcceptedPair(p, prompted, c.answers, 0);
      && |r.console.out| == |c.out| + k
      && c.out <= r.console.out
      && (2 * k + 1 < |c.answers| ==>
            r.result == Ok(c.answers[2 * k]) && r.console.answers == c.answers[2 * k + 2..])
      && (2 * k + 1 >= |c.answers| ==> r.result == Err(EOFError) && r.console.answers == [])
  {
    PasswordLoop(c.answers, c.out, p, prompted, 0)
  }

  /** A password the prompt accepts was typed twice the same, is not blank
      and passed every validator. */
  lemma AcceptedPasswordIsSound(c: Console, p: Prompts, prompted: map<string, Value>)
    ensures var r := PasswordPrompt(c, p, prompted);
      r.result.Ok? ==>
        var k := FirstAcceptedPair(p, prompted, c.answers, 0);
        && 2 * k + 1 < |c.answers|
        && r.result.value == c.answers[2 * k] == c.answers[2 * k + 1]
        && Strip(r.result.value) != ""
        && p.validate(r.result.value, prompted) == []
  {
  }

  /** The password the prompt accepts from what is left of `answers` is an
      accepted pair of `answers` itself, after everything read before. */
  lemma PasswordWasTyped(answers: seq<string>, mid: seq<string>, rest: Console, p: Prompts,
                         prompted: map<string, Value>, from: nat)
    requires LeftOf(rest.answers, mid) && LeftOf(mid, answers)
    requires from <= |answers| - |mid|
    requires PasswordPrompt(rest, p, prompted).result.Ok?
    ensures PasswordTyped(p, answers, from, PasswordPrompt(rest, p, prompted).result.value)
  {
    LeftOfTrans(rest.answers, mid, answers);
    var k := FirstAcceptedPair(p, prompted, rest.answers, 0);
    var i := |answers| - |rest.answers| + 2 * k;
    assert rest.answers[2 * k] == answers[i] && rest.answers[2 * k + 1] == answers[i + 1];
    assert AcceptedAt(p, prompted, answers, i);
  }

  // ---------------------------------------------------------------------------
  // Without a terminal: --noinput
  // ---------------------------------------------------------------------------

  /** Whether a required field was given a non-empty option that cleans. */
  predicate FieldOptionUsable(p: Prompts, options: map<string, string>, f: string)
  {
    f in options && options[f] != "" && p.cleanField(f, options[f]).Valid?
  }

  /** The index of the first required field without a usable option, or `|fields|`. */
  function FirstUnusableField(p: Prompts, fields: seq<string>, options: map<string, string>): (k: nat)
    ensures k <= |fields|
    ensures forall j | 0 <= j < k :: FieldOptionUsable(p, options, fields[j])
    ensures k < |fields| ==> !FieldOptionUsable(p, options, fields[k])
  {
    if fields == [] then 0
    else if !FieldOptionUsable(p, options, fields[0]) then 0
    else 1 + FirstUnusableField(p, fields[1..], options)
  }

  /** The required-field check of `--noinput`: every field must have a
      non-empty option, which is cleaned; a missing one and a failing clean
      both end the command. */
  function NonInteractiveFields(p: Prompts, fields: seq<string>, options: map<string, string>, acc: map<string, Value>)
    : (r: Result<map<string, Value>>)
    ensures r.Ok? <==> forall f | f in fields :: FieldOptionUsable(p, options, f)
    ensures r.Ok? ==>
      && (forall g :: g in r.value <==> g in acc || g in fields)
      && (forall f | f in fields :: f in r.value && f in options && r.value[f] == p.cleanField(f, options[f]).value)
      && (forall g | g in acc && g !in fields :: r.value[g] == acc[g])
    ensures var k := FirstUnusableField(p, fields, options);
      k < |fields| ==>
        && (fields[k] !in options || options[fields[k]] == "" ==>
              r == Err(CommandError("You must use --" + fields[k] + " with --noinput.")))
        && (fields[k] in options && options[fields[k]] != "" ==>
              r == Err(CommandError(Join(p.cleanField(fields[k], options[fields[k]]).messages, "; "))))
    ensures r.Err? ==> r.error.CommandError?
    decreases |fields|
  {
    if fields == [] then Ok(acc)
    else
      var f := fields[0];
      assert f in fields;
      if f !in options || options[f] == "" then Err(CommandError("You must use --" + f + " with --noinput."))
      else
        match p.cleanField(f, options[f])
        case Invalid(msgs) => Err(CommandError(Join(msgs, "; ")))
        case Valid(v) =>
          var r := NonInteractiveFields(p, fields[1..], options, acc[f := v]);
          assert forall g | g in fields :: g == f || g in fields[1..];
          r
  }

  // ---------------------------------------------------------------------------
  // handle
  // ---------------------------------------------------------------------------

  /** The keyword fields handed to `create_superuser` as the command builds
      them: the collected fields (`email` and `password` go as arguments of
      their own) and the provider user found by the email prompt. */
  function SuperuserFieldsAsWritten(data: map<string, Value>, remote: Option<RemoteUser>): map<string, Value>
  {
    var base := data - {"email", "password"};
    if remote.Some? then base["auth0user" := Record(remote.value)] else base
  }

  /** The keyword fields with the `--site` option passed on as `site_id`. */
  function SuperuserFields(data: map<string, Value>, remote: Option<RemoteUser>, site: Value): (r: map<string, Value>)
    ensures "site_id" in r && r["site_id"] == site
    ensures r - {"site_id"} == SuperuserFieldsAsWritten(data, remote) - {"site_id"}
  {
    SuperuserFieldsAsWritten(data, remote)["site_id" := site]
  }

  /** The world after the command: its result (the created user, if any), the
      console and the cache and effect log. */
  datatype Handled = Handled(result: Result<Option<LocalUser>>, console: Console, state: State)

  /** What the command reports after a creation. */
  function Report(opts: Options): seq<Line>
  {
    if opts.verbosity >= 1 then
      [Stdout(CreatedMessage)] + (if !opts.interactive then [Stdout(NoRemoteMessage)] else [])
    else []
  }

  /** `if email:` — create the superuser from what was gathered. */
  function CreateStep(opts: Options, email: Option<string>, password: Option<string>, remote: Option<RemoteUser>,
                      data: map<string, Value>, env: Env, c: Console, s: State): (r: Handled)
    ensures s.effects <= r.state.effects
    ensures r.console.answers == c.answers
    ensures email.None? || email == Some("") ==> r == Handled(Ok(None), c, s)
    ensures email.Some? && email.value != "" ==>
      var cr := CreateSuperuser(email.value, password, SuperuserFields(data, remote, opts.siteId), env, s);
      && r.state == cr.state
      && (r.result.Ok? <==> cr.result.Ok?)
      && (r.result.Ok? ==> r.result == Ok(Some(cr.result.value)))
      && (r.result.Err? ==> r.result.error == cr.result.error)
    ensures r.result.Ok? && r.result.value.Some? ==>
      var u := r.result.value.value;
      && email.Some? && u.email == email.value
      && u.password == env.hasher.make(password)
      && u.site == opts.siteId
      && "is_staff" in u.fields && u.fields["is_staff"] == Bool(true)
      && "is_superuser" in u.fields && u.fields["is_superuser"] == Bool(true)
      && r.console.out == c.out + Report(opts)
  {
    if email.None? || email.value == "" then Handled(Ok(None), c, s)
    else
      var created := CreateSuperuser(email.value, password, SuperuserFields(data, remote, opts.siteId), env, s);
      match created.result
      case Err(e) => Handled(Err(e), c, created.state)
      case Ok(u) => Handled(Ok(Some(u)), c.(out := c.out + Report(opts)), created.state)
  }

  /** `handle` under `--noinput`: the email and every required field must
      come from the options; nothing is read from the console. */
  function HandleNoInput(opts: Options, c: Console, p: Prompts, env: Env, s: State): (r: Handled)
    requires !opts.interactive
    ensures s.effects <= r.state.effects
    ensures r.console.answers == c.answers
    ensures opts.email.None? || opts.email == Some("") ==>
      r == Handled(Err(CommandError("You must use --email with --noinput.")), c, s)
    ensures (exists f | f in p.requiredFields :: !FieldOptionUsable(p, opts.fieldOptions, f)) ==>
      r.result.Err? && r.state == s
    ensures r.result.Ok? ==> r.result.value.Some?
    ensures r.result.Ok? ==>
      var u := r.result.value.value;
      && opts.email.Some? && u.email == opts.email.value
      && u.password == env.hasher.make(None)
      && u.site == opts.siteId
      && "is_staff" in u.fields && u.fields["is_staff"] == Bool(true)
      && "is_superuser" in u.fields && u.fields["is_superuser"] == Bool(true)
  {
    if opts.email.None? || opts.email.value == "" then
      Handled(Err(CommandError("You must use --email with --noinput.")), c, s)
    else
      match NonInteractiveFields(p, p.requiredFields, opts.fieldOptions, map[])
      case Err(e) => Handled(Err(e), c, s)
      case Ok(data) => CreateStep(opts, opts.email, None, None, data, env, c, s)
  }

  /** How many answers the email prompt reads: none when `--email` was given. */
  function EmailAnswersRead(opts: Options, p: Prompts, store: seq<LocalUser>, answers: seq<string>): nat
  {
    if opts.email.Some? then 0 else FirstEmailAnswer(p, store, opts.siteId, answers) + 1
  }

  /** The email of a run at a terminal: `--email` if given, otherwise the
      email prompt, which reads answers from the front only. */
  function EmailStep(opts: Options, c: Console, p: Prompts, store: seq<LocalUser>): (r: Run<(string, Option<RemoteUser>)>)
    ensures opts.email.Some? ==> r == Run(Ok((opts.email.value, None)), c)
    ensures opts.email.None? ==> r == EmailPrompt(c, p, store, opts.siteId)
    ensures LeftOf(r.console.answers, c.answers)
    ensures r.result.Ok? ==> EmailAnswersRead(opts, p, store, c.answers) <= |c.answers| - |r.console.answers|
  {
    EmailPromptLeavesRest(c, p, store, opts.siteId);
    DropLeftOf(c.answers, 0);
    if opts.email.Some? then Run(Ok((opts.email.value, None)), c)
    else EmailPrompt(c, p, store, opts.siteId)
  }

  /** `handle` at a terminal: the email prompt (unless `--email` was given),
      the required-field prompts and the password prompt, then the creation. */
  function HandlePrompted(opts: Options, c: Console, p: Prompts, env: Env, store: seq<LocalUser>, s: State): (r: Handled)
    ensures s.effects <= r.state.effects
    ensures r.result.Ok? && r.result.value.Some? ==>
      var u := r.result.value.value;
      && u.site == opts.siteId
      && "is_staff" in u.fields && u.fields["is_staff"] == Bool(true)
      && "is_superuser" in u.fields && u.fields["is_superuser"] == Bool(true)
      && (opts.email.Some? ==> u.email == opts.email.value)
    ensures r.result.Ok? && r.result.value.Some? && opts.email.None? ==>
      var k := FirstEmailAnswer(p, store, opts.siteId, c.answers);
      k < |c.answers| && p.cleanEmail(c.answers[k]).Valid?
      && r.result.value.value.email == p.cleanEmail(c.answers[k]).value
    ensures r.result.Ok? && r.result.value.Some? ==>
      exists pw :: PasswordTyped(p, c.answers, EmailAnswersRead(opts, p, store, c.answers), pw)
                   && r.result.value.value.password == env.hasher.make(Some(pw))
  {
    var emailRun := EmailStep(opts, c, p, store);
    match emailRun.result
    case Err(e) => Handled(Err(e), emailRun.console, s)
    case Ok((email, remote)) =>
      var fieldRun := RequiredFieldsPrompt(emailRun.console, p, p.requiredFields, opts.fieldOptions, FieldData(map[], map[]));
      match fieldRun.result
      case Err(e) => Handled(Err(e), fieldRun.console, s)
      case Ok(data) =>
        var passwordRun := PasswordPrompt(fieldRun.console, p, data.prompted);
        match passwordRun.result
        case Err(e) => Handled(Err(e), passwordRun.console, s)
        case Ok(password) =>
          PasswordWasTyped(c.answers, emailRun.console.answers, fieldRun.console, p, data.prompted,
                           EmailAnswersRead(opts, p, store, c.answers));
          CreateStep(opts, Some(email), Some(password), remote, data.userData, env, passwordRun.console, s)
  }

  /** `Command.handle` with the user table `store` the prompts check against.
      Without a terminal the prompts are skipped, but an email given with
      `--email` still creates the superuser, with no password. */
  function Handle(opts: Options, c: Console, p: Prompts, env: Env, store: seq<LocalUser>, s: State): (r: Handled)
    ensures s.effects <= r.state.effects
    ensures !opts.interactive && (opts.email.None? || opts.email == Some("")) ==>
      r == Handled(Err(CommandError("You must use --email with --noinput.")), c, s)
    ensures !opts.interactive ==> r.console.answers == c.answers
    ensures opts.interactive && !p.isTty ==>
      r == CreateStep(opts, opts.email, None, None, map[], env, c.(out := c.out + [Stdout(SkipMessage)]), s)
    ensures opts.interactive && !p.isTty && opts.email.None? ==>
      r == Handled(Ok(None), c.(out := c.out + [Stdout(SkipMessage)]), s)
    ensures r.result.Ok? && r.result.value.Some? ==>
      var u := r.result.value.value;
      && u.site == opts.siteId
      && "is_staff" in u.fields && u.fields["is_staff"] == Bool(true)
      && "is_superuser" in u.fields && u.fields["is_superuser"] == Bool(true)
      && (opts.email.Some? ==> u.email == opts.email.value)
    ensures (!opts.interactive || !p.isTty) && r.result.Ok? && r.result.value.Some? ==>
      r.result.value.value.password == env.hasher.make(None)
    ensures opts.interactive && p.isTty && r.result.Ok? && r.result.value.Some? && opts.email.None? ==>
      var k := FirstEmailAnswer(p, store, opts.siteId, c.answers);
      k < |c.answers| && p.cleanEmail(c.answers[k]).Valid?
      && r.result.value.value.email == p.cleanEmail(c.answers[k]).value
    ensures opts.interactive && p.isTty && r.result.Ok? && r.result.value.Some? ==>
      exists pw :: PasswordTyped(p, c.answers, EmailAnswersRead(opts, p, store, c.answers), pw)
                   && r.result.value.value.password == env.hasher.make(Some(pw))
  {
    if !opts.interactive then HandleNoInput(opts, c, p, env, s)
    else if !p.isTty then
      CreateStep(opts, opts.email, None, None, map[], env, c.(out := c.out + [Stdout(SkipMessage)]), s)
    else HandlePrompted(opts, c, p, env, store, s)
  }

  // ---------------------------------------------------------------------------
  // Properties of the whole command
  // ---------------------------------------------------------------------------

  /** A provider user found by the email prompt is passed on as `auth0user`:
      the superuser is tied to it and the provider is not asked to get or
      create one. */
  lemma CreateWithKnownRemote(opts: Options, email: string, password: Option<string>, ru: RemoteUser,
                              data: map<string, Value>, env: Env, c: Console, s: State)
    requires email != ""
    ensures var r := CreateStep(opts, Some(email), password, Some(ru), data, env, c, s);
      && Within(Since(s, r.state), NoRemoteCreate)
      && (r.result.Ok? ==> r.result.value.Some? && r.result.value.value.auth0Id == ru.userId)
  {
    var extra := SuperuserFields(data, Some(ru), opts.siteId);
    assert GetOr(extra, "auth0user", Null) == Record(ru);
    var fields := SuperuserDefaults(extra, env.config);
    var r := CreateStep(opts, Some(email), password, Some(ru), data, env, c, s);
    var created := CreateSuperuser(email, password, extra, env, s);
    assert r.state == created.state;
    if fields["is_staff"] == Bool(true) && fields["is_superuser"] == Bool(true) {
      assert created == CreateUserCore(email, password, fields, env, s);
      assert GetOr(fields, "auth0user", Null) == Record(ru);
      CreateWithSuppliedRemote(email, password, fields, env, s);
      assert RemoteIdOf(email, password, fields, env) == Some(ru.userId);
    } else {
      assert created.state == s;
      assert Since(s, r.state) == [];
    }
  }

  /** Creating from bare options asks the provider to get or create the
      user, and a success is reported with the `--noinput` warning. */
  lemma CreateFromOptionsCallsProvider(opts: Options, email: string, env: Env, c: Console, s: State)
    requires !opts.interactive && email != "" && opts.verbosity >= 1
    ensures var r := CreateStep(opts, Some(email), None, None, map[], env, c, s);
      && |r.state.effects| > |s.effects|
      && r.state.effects[|s.effects|].RemoteGetOrCreate?
      && r.state.effects[|s.effects|].email == email
      && (r.result.Ok? ==> r.result.value.Some? && r.console.out == c.out + [Stdout(CreatedMessage), Stdout(NoRemoteMessage)])
  {
    var extra := SuperuserFields(map[], None, opts.siteId);
    assert extra == map["site_id" := opts.siteId];
    SuperuserRemoteDefaults(email, None, extra, env, s);
    var created := CreateSuperuser(email, None, extra, env, s);
    var r := CreateStep(opts, Some(email), None, None, map[], env, c, s);
    assert r.state == created.state;
    assert r.state.effects[|s.effects|] == Since(s, created.state)[0];
    assert Report(opts) == [Stdout(CreatedMessage), Stdout(NoRemoteMessage)];
  }

  /** `--noinput` does ask the provider to get or create the user, although
      the command then warns that it does not create one. */
  lemma NonInteractiveStillCreatesRemote(opts: Options, c: Console, p: Prompts, env: Env, store: seq<LocalUser>, s: State)
    requires !opts.interactive && opts.email.Some? && opts.email.value != ""
    requires p.requiredFields == [] && opts.verbosity >= 1
    ensures var r := Handle(opts, c, p, env, store, s);
      && |r.state.effects| > |s.effects|
      && r.state.effects[|s.effects|].RemoteGetOrCreate?
      && r.state.effects[|s.effects|].email == opts.email.value
      && (r.result.Ok? ==> r.result.value.Some? && r.console.out == c.out + [Stdout(CreatedMessage), Stdout(NoRemoteMessage)])
  {
    assert NonInteractiveFields(p, p.requiredFields, opts.fieldOptions, map[]) == Ok(map[]);
    assert HandleNoInput(opts, c, p, env, s) == CreateStep(opts, opts.email, None, None, map[], env, c, s);
    CreateFromOptionsCallsProvider(opts, opts.email.value, env, c, s);
  }

  /** When the email prompt finds the provider already has a user with the
      new address, the superuser is tied to that user and the provider is not
      asked to get or create one. */
  lemma KnownRemoteUserIsReused(opts: Options, pw: string, e: string, c: Console, p: Prompts, env: Env,
                                store: seq<LocalUser>, s: State, ru: RemoteUser)
    requires opts.interactive && p.isTty && opts.email.None? && p.requiredFields == []
    requires c.answers == [e, pw, pw]
    requires p.cleanEmail(e) == Valid(e) && e != "" && GetByEmail(store, Str(e), opts.siteId).DoesNotExist?
    requires p.remoteByEmail(e) == Some(ru)
    requires PasswordAccepted(p, map[], pw, pw)
    ensures var r := Handle(opts, c, p, env, store, s);
      && Within(Since(s, r.state), NoRemoteCreate)
      && (r.result.Ok? ==> r.result.value.Some? && r.result.value.value.auth0Id == ru.userId
                           && r.result.value.value.email == e)
  {
    assert FirstEmailAnswer(p, store, opts.siteId, c.answers) == 0;
    var emailRun := EmailPrompt(c, p, store, opts.siteId);
    assert emailRun.result == Ok((e, Some(ru)));
    assert emailRun.console.answers == [pw, pw];
    var fieldRun := RequiredFieldsPrompt(emailRun.console, p, [], opts.fieldOptions, FieldData(map[], map[]));
    var passwordRun := PasswordPrompt(fieldRun.console, p, map[]);
    assert FirstAcceptedPair(p, map[], fieldRun.console.answers, 0) == 0;
    assert HandlePrompted(opts, c, p, env, store, s)
        == CreateStep(opts, Some(e), Some(pw), Some(ru), map[], env, passwordRun.console, s);
    CreateWithKnownRemote(opts, e, Some(pw), ru, map[], env, passwordRun.console, s);
  }

  /** An email answer that cleans to the empty string leaves the email loop,
      the remaining prompts still run, and nothing is created. */
  lemma BlankCleanedEmailCreatesNothing(opts: Options, raw: string, pw: string, c: Console, p: Prompts, env: Env,
                                        store: seq<LocalUser>, s: State)
    requires opts.interactive && p.isTty && opts.email.None? && p.requiredFields == []
    requires c.answers == [raw, pw, pw] && p.cleanEmail(raw) == Valid("")
    requires PasswordAccepted(p, map[], pw, pw)
    ensures Handle(opts, c, p, env, store, s) == Handled(Ok(None), Console([], c.out), s)
  {
    assert FirstEmailAnswer(p, store, opts.siteId, c.answers) == 0;
    var emailRun := EmailPrompt(c, p, store, opts.siteId);
    assert emailRun.result == Ok(("", None));
    assert emailRun.console == Console([pw, pw], c.out);
    var passwordRun := PasswordPrompt(emailRun.console, p, map[]);
    assert FirstAcceptedPair(p, map[], [pw, pw], 0) == 0;
    assert passwordRun.console.answers == [];
  }

  /** As written, the `--site` option only scopes the "already taken" check:
      the keyword fields never carry it, so a superuser meant for another site
      lands on SITE_ID instead. */
  lemma SiteOptionIgnoredAsWritten(opts: Options, email: string, pw: Option<string>, data: map<string, Value>,
                                   remote: Option<RemoteUser>, env: Env, s: State)
    requires "site_id" !in data && opts.siteId != DefaultSite(env.config)
    ensures var r := CreateSuperuser(email, pw, SuperuserFieldsAsWritten(data, remote), env, s);
      r.result.Ok? ==> r.result.value.site == DefaultSite(env.config) != opts.siteId
  {
  }

  /** With the option passed on, the superuser lands on the requested site. */
  lemma SiteOptionHonoured(opts: Options, email: string, pw: Option<string>, data: map<string, Value>,
                           remote: Option<RemoteUser>, env: Env, c: Console, s: State)
    requires email != ""
    ensures var r := CreateStep(opts, Some(email), pw, remote, data, env, c, s);
      r.result.Ok? ==> r.result.value.Some? && r.result.value.value.site == opts.siteId
  {
  }
}

=== FILE: common.dfy ===
/** Python and Django values shared by every part of the model: optional values,
    the exceptions the code raises, dynamically typed field values, the remote
    (Auth0) user record, Python string helpers, and the outside world the model
    layer touches (a cache, an identity provider, a log of side effects). */
module Common {

  datatype Option<+T> = None | Some(value: T)

  /** The exceptions that escape the modelled code. */
  datatype PyError =
    | ValueError(message: string)
    | AttributeError(name: string)
    | TypeError(message: string)
    | KeyError(key: string)
    | Auth0Error
    | MultipleObjectsReturned
    | PermissionDenied
    | CommandError(message: string)
    | EOFError
    | ImproperlyConfigured

  datatype Result<+T> = Ok(value: T) | Err(error: PyError)

  /** A dynamically typed Python value as it appears in keyword arguments,
      profile attributes and JSON documents. */
  datatype Value =
    | Null
    | Bool(b: bool)
    | Int(i: int)
    | Str(s: string)
    | Dict(entries: map<string, Value>)
    | Record(user: RemoteUser)

  /** A user record of the identity provider: its id, its attributes (what
      `as_dict` returns) and the names of the attributes it accepts updates for. */
  datatype RemoteUser = RemoteUser(userId: string, attrs: map<string, Value>, updatable: seq<string>)

  /** Python truthiness. */
  predicate Truthy(v: Value)
  {
    match v
    case Null => false
    case Bool(b) => b
    case Int(i) => i != 0
    case Str(s) => s != ""
    case Dict(m) => m != map[]
    case Record(_) => true
  }

  /** `None` for a missing text, the text otherwise. */
  function TextValue(t: Option<string>): Value
  {
    match t
    case None => Null
    case Some(s) => Str(s)
  }

  /** `d.get(k, default)`. */
  function GetOr(m: map<string, Value>, k: string, default: Value): (v: Value)
    ensures k in m ==> v == m[k]
    ensures k !in m ==> v == default
  {
    if k in m then m[k] else default
  }

  /** `d.setdefault(k, v)`, keeping a value the caller already supplied. */
  function SetDefault(m: map<string, Value>, k: string, v: Value): (r: map<string, Value>)
  {
    if k in m then m else m[k := v]
  }

  // ---------------------------------------------------------------------------
  // Python's str.strip(), str.join() and str() of scalars
  // ---------------------------------------------------------------------------

  /** Python's `str.isspace` for one character. */
  predicate IsSpace(c: char)
  {
    || c == ' '
    || ('\t' <= c <= '\r')
    || ('\U{1C}' <= c <= '\U{1F}')
    || c == '\U{85}'
    || c == '\U{A0}'
    || c == '\U{1680}'
    || ('\U{2000}' <= c <= '\U{200A}')
    || c == '\U{2028}'
    || c == '\U{2029}'
    || c == '\U{202F}'
    || c == '\U{205F}'
    || c == '\U{3000}'
  }

  predicate AllSpace(s: string)
  {
    forall k | 0 <= k < |s| :: IsSpace(s[k])
  }

  /** Neither end of `s` is whitespace. */
  predicate Trimmed(s: string)
  {
    s == [] || (!IsSpace(s[0]) && !IsSpace(s[|s| - 1]))
  }

  /** The first index at or after `i` whose character is not whitespace. */
  function SkipSpace(s: string, i: nat): (k: nat)
    requires i <= |s|
    ensures i <= k <= |s|
    ensures forall m | i <= m < k :: IsSpace(s[m])
    ensures k == |s| || !IsSpace(s[k])
    decreases |s| - i
  {
    if i < |s| && IsSpace(s[i]) then SkipSpace(s, i + 1) else i
  }

  /** The end of `s[lo..j]` once its trailing whitespace is dropped. */
  function SkipSpaceBack(s: string, lo: nat, j: nat): (k: nat)
    requires lo <= j <= |s|
    ensures lo <= k <= j
    ensures forall m | k <= m < j :: IsSpace(s[m])
    ensures k == lo || !IsSpace(s[k - 1])
    decreases j
  {
    if lo < j && IsSpace(s[j - 1]) then SkipSpaceBack(s, lo, j - 1) else j
  }

  /** `s.strip()`: the slice of `s` left once whitespace is dropped from both ends. */
  function Strip(s: string): (r: string)
    ensures Trimmed(r)
    ensures r == [] <==> AllSpace(s)
  {
    var i := SkipSpace(s, 0);
    var j := SkipSpaceBack(s, i, |s|);
    assert AllSpace(s[..i]) by {
      forall m | 0 <= m < i ensures IsSpace(s[..i][m]) { assert s[..i][m] == s[m]; }
    }
    assert AllSpace(s[j..]) by {
      forall m | 0 <= m < |s| - j ensures IsSpace(s[j..][m]) { assert s[j..][m] == s[j + m]; }
    }
    assert i < j ==> !IsSpace(s[i]) && !IsSpace(s[j - 1]);
    s[i..j]
  }

  lemma SkipSpaceTo(s: string, i: nat, k: nat)
    requires i <= k < |s| && !IsSpace(s[k])
    requires forall m | i <= m < k :: IsSpace(s[m])
    ensures SkipSpace(s, i) == k
    decreases k - i
  {
    if i < k {
      SkipSpaceTo(s, i + 1, k);
    }
  }

  lemma SkipSpaceBackTo(s: string, lo: nat, k: nat, j: nat)
    requires lo < k <= j <= |s| && !IsSpace(s[k - 1])
    requires forall m | k <= m < j :: IsSpace(s[m])
    ensures SkipSpaceBack(s, lo, j) == k
    decreases j - k
  {
    if k < j {
      SkipSpaceBackTo(s, lo, k, j - 1);
    }
  }

  /** Whitespace around a trimmed, non-empty middle is exactly what strip drops. */
  lemma StripAround(x: string, m: string, y: string)
    requires AllSpace(x) && AllSpace(y) && m != [] && Trimmed(m)
    ensures Strip(x + m + y) == m
  {
    var s := x + m + y;
    assert s[|x|] == m[0];
    forall k | 0 <= k < |x|
      ensures IsSpace(s[k])
    {
      assert s[k] == x[k];
    }
    SkipSpaceTo(s, 0, |x|);
    var e := |x| + |m|;
    assert s[e - 1] == m[|m| - 1];
    forall k | e <= k < |s|
      ensures IsSpace(s[k])
    {
      assert s[k] == y[k - e];
    }
    SkipSpaceBackTo(s, |x|, e, |s|);
    assert s[|x|..e] == m;
  }

  /** A trailing space never survives strip. */
  lemma StripTrailingSpace(f: string)
    ensures Strip(f + " ") == Strip(f)
  {
    var g := f + " ";
    if AllSpace(f) {
      forall k | 0 <= k < |g|
        ensures IsSpace(g[k])
      {
        if k < |f| {
          assert g[k] == f[k];
        }
      }
    } else {
      var i := SkipSpace(f, 0);
      var j := SkipSpaceBack(f, i, |f|);
      assert Strip(f) == f[i..j];
      var x, m, y := f[..i], f[i..j], f[j..] + " ";
      forall k | 0 <= k < |x|
        ensures IsSpace(x[k])
      {
        assert x[k] == f[k];
      }
      forall k | 0 <= k < |y|
        ensures IsSpace(y[k])
      {
        if k < |f| - j {
          assert y[k] == f[j + k];
        }
      }
      assert g == x + m + y;
      StripAround(x, m, y);
    }
  }

  /** `sep.join(parts)`. */
  function Join(parts: seq<string>, sep: string): (r: string)
    ensures |parts| == 0 ==> r == ""
    ensures |parts| > 0 ==> |r| == TotalLength(parts) + |sep| * (|parts| - 1)
    ensures |parts| > 0 ==> r[..|parts[0]|] == parts[0]
  {
    if |parts| == 0 then ""
    else if |parts| == 1 then parts[0]
    else parts[0] + sep + Join(parts[1..], sep)
  }

  function TotalLength(parts: seq<string>): nat
  {
    if |parts| == 0 then 0 else |parts[0]| + TotalLength(parts[1..])
  }

  function DigitChar(d: nat): char
    requires d < 10
  {
    "0123456789"[d]
  }

  /** Decimal digits of a natural number, most significant first. */
  function NatToString(n: nat): (r: string)
    ensures r != []
    ensures forall k | 0 <= k < |r| :: '0' <= r[k] <= '9'
    ensures |r| > 1 ==> r[0] != '0'
  {
    if n < 10 then [DigitChar(n)] else NatToString(n / 10) + [DigitChar(n % 10)]
  }

  /** `'%s' % v` for the values a name or a token can hold; a mapping or a
      record is rendered as a fixed placeholder instead of Python's repr. */
  function Display(v: Value): string
  {
    match v
    case Null => "None"
    case Bool(b) => if b then "True" else "False"
    case Int(i) => if i < 0 then "-" + NatToString(-i) else NatToString(i)
    case Str(s) => s
    case Dict(_) => "{...}"
    case Record(_) => "<Auth0User>"
  }

  // ---------------------------------------------------------------------------
  // The world outside the model layer
  // ---------------------------------------------------------------------------

  /** A cached remote record and the time-out it was stored with. */
  datatype CacheEntry = CacheEntry(user: RemoteUser, timeout: int)

  /** Calls that leave the process, in the order they are made. */
  datatype Effect =
    | RemoteGet(id: string)
    | CacheSet(key: string, user: RemoteUser, timeout: int)
    | RemoteSave(user: RemoteUser)
    | RemoteGetOrCreate(email: string, defaults: map<string, Value>)
    | DbSave(auth0Id: string, email: string, password: string)
    | PasswordChanged(raw: string)

  /** What kind of call an effect is. */
  datatype Kind = Fetch | CacheWrite | RemoteUpdate | RemoteCreate | RowWrite | PasswordReport

  function KindOf(e: Effect): Kind
  {
    match e
    case RemoteGet(_) => Fetch
    case CacheSet(_, _, _) => CacheWrite
    case RemoteSave(_) => RemoteUpdate
    case RemoteGetOrCreate(_, _) => RemoteCreate
    case DbSave(_, _, _) => RowWrite
    case PasswordChanged(_) => PasswordReport
  }

  /** Reading the profile: lookups and cache writes only. */
  const Reading: set<Kind> := {Fetch, CacheWrite}

  /** Every kind of call except asking the provider to get or create a user
      and reporting a password change. */
  const Quiet: set<Kind> := {Fetch, CacheWrite, RemoteUpdate, RowWrite}

  /** Every kind of call except asking the provider to get or create a user. */
  const NoRemoteCreate: set<Kind> := Quiet + {PasswordReport}

  /** Every effect in `es` is of one of the `kinds`. */
  predicate Within(es: seq<Effect>, kinds: set<Kind>)
  {
    es == [] || (KindOf(es[0]) in kinds && Within(es[1..], kinds))
  }

  lemma {:induction false} WithinConcat(a: seq<Effect>, b: seq<Effect>, kinds: set<Kind>)
    ensures Within(a + b, kinds) <==> Within(a, kinds) && Within(b, kinds)
  {
    if a != [] {
      assert (a + b)[1..] == a[1..] + b;
      WithinConcat(a[1..], b, kinds);
    } else {
      assert a + b == b;
    }
  }

  lemma {:induction false} WithinAt(es: seq<Effect>, kinds: set<Kind>, i: nat)
    requires Within(es, kinds) && i < |es|
    ensures KindOf(es[i]) in kinds
  {
    if i > 0 {
      WithinAt(es[1..], kinds, i - 1);
    }
  }

  lemma {:induction false} WithinWider(es: seq<Effect>, kinds: set<Kind>, wider: set<Kind>)
    requires Within(es, kinds) && kinds <= wider
    ensures Within(es, wider)
  {
    if es != [] {
      WithinWider(es[1..], kinds, wider);
    }
  }

  /** The shared cache and the log of effects so far. */
  datatype State = State(cache: map<string, CacheEntry>, effects: seq<Effect>)

  /** The identity provider's user API: lookup by id and get-or-create by
      email. `None` stands for a raised provider error or "does not exist". */
  datatype Provider = Provider(
    fetch: string -> Option<RemoteUser>,
    getOrCreate: (string, map<string, Value>) -> Option<RemoteUser>)

  /** The settings the core reads. `siteId` is `None` when SITE_ID is unset. */
  datatype Config = Config(
    profileCacheTimeout: int,
    siteId: Option<Value>,
    clientId: string,
    clientSecret: string,
    domain: string)

  /** `getattr(settings, 'SITE_ID', 1)`. */
  function DefaultSite(c: Config): Value
  {
    match c.siteId
    case Some(v) => v
    case None => Int(1)
  }

  /** The effects logged between two states. */
  function Since(s: State, s': State): seq<Effect>
    requires s.effects <= s'.effects
  {
    s'.effects[|s.effects|..]
  }

  lemma SinceChain(s1: State, s2: State, s3: State)
    requires s1.effects <= s2.effects && s2.effects <= s3.effects
    ensures s1.effects <= s3.effects
    ensures Since(s1, s3) == Since(s1, s2) + Since(s2, s3)
  {
  }

  /** Two stretches of a log, each of whose entries is of a kind in `a`
      and `b` respectively, together only hold entries of those kinds. */
  lemma WithinChain(s1: State, s2: State, s3: State, a: set<Kind>, b: set<Kind>)
    requires s1.effects <= s2.effects && s2.effects <= s3.effects
    requires Within(Since(s1, s2), a) && Within(Since(s2, s3), b)
    ensures s1.effects <= s3.effects && Within(Since(s1, s3), a + b)
  {
    SinceChain(s1, s2, s3);
    WithinWider(Since(s1, s2), a, a + b);
    WithinWider(Since(s2, s3), b, a + b);
    WithinConcat(Since(s1, s2), Since(s2, s3), a + b);
  }

  /** Append one effect to the log. */
  function Emit(s: State, e: Effect): State
  {
    State(s.cache, s.effects + [e])
  }
}

=== FILE: middleware.dfy ===
/** `auth0user_middleware` in auth0user/middleware.py: before the view runs,
    an unauthenticated request gets the provider connection parameters
    attached as `request.auth0`. */
module Middleware {
  import opened Common

  /** The parameters attached as `request.auth0`. */
  datatype ConnectionParams = ConnectionParams(clientId: string, domain: string, redirectHost: string)

  /** What the core reads of an inbound request: scheme, host (with port, as
      `get_host` gives it), full path, query parameters, whether its user is
      authenticated, and the attached connection parameters. */
  datatype Request = Request(
    scheme: string,
    host: string,
    fullPath: string,
    query: map<string, string>,
    authenticated: bool,
    auth0: Option<ConnectionParams>)

  /** `''.join([request.scheme, '://', request.get_host()])`. */
  function RedirectHost(scheme: string, host: string): string
  {
    scheme + "://" + host
  }

  /** The first index of `c` in `s`, or `|s|` when it does not occur. */
  function FirstIndex(s: string, c: char): (k: nat)
    ensures k <= |s|
    ensures forall i | 0 <= i < k :: s[i] != c
    ensures k < |s| ==> s[k] == c
  {
    if s == [] then 0
    else if s[0] == c then 0
    else 1 + FirstIndex(s[1..], c)
  }

  /** Reading a redirect host back into scheme and host. */
  function SplitRedirectHost(h: string): Option<(string, string)>
  {
    var k := FirstIndex(h, ':');
    if k + 3 <= |h| && h[k..k + 3] == "://" then Some((h[..k], h[k + 3..])) else None
  }

  /** The redirect host is exactly scheme, "://", host: for any scheme
      without a colon both parts can be read back from it. */
  lemma {:induction false} RedirectHostRoundTrip(scheme: string, host: string)
    requires forall i | 0 <= i < |scheme| :: scheme[i] != ':'
    ensures SplitRedirectHost(RedirectHost(scheme, host)) == Some((scheme, host))
  {
    var h := RedirectHost(scheme, host);
    assert h[|scheme|] == ':';
    assert forall i | 0 <= i < |scheme| :: h[i] == scheme[i];
    var k := FirstIndex(h, ':');
    assert k == |scheme|;
    assert h[k..k + 3] == "://";
    assert h[..k] == scheme;
    assert h[k + 3..] == host;
  }

  /** The request the downstream handler sees: an unauthenticated one gets the
      configured client id and domain and its own redirect host; nothing else
      changes, and an authenticated one is left as it is. */
  function Decorate(r: Request, config: Config): (d: Request)
    ensures d == r.(auth0 := d.auth0)
    ensures !r.authenticated ==>
      d.auth0 == Some(ConnectionParams(config.clientId, config.domain, r.scheme + "://" + r.host))
    ensures r.authenticated ==> d == r
  {
    if !r.authenticated then
      r.(auth0 := Some(ConnectionParams(config.clientId, config.domain, RedirectHost(r.scheme, r.host))))
    else r
  }

  /** The response and the requests handed to the downstream handler. */
  datatype Handled<R> = Handled(response: R, forwarded: seq<Request>)

  /** The middleware around a handler: the handler is called exactly once,
      on the decorated request, and its response is returned unchanged. Only
      an unauthenticated request is decorated, with the configured client id
      and domain and its own redirect host; nothing else about it changes. */
  function ConnectionMiddleware<R>(r: Request, config: Config, handler: Request -> R): (h: Handled<R>)
    ensures |h.forwarded| == 1
    ensures h.response == handler(h.forwarded[0])
    ensures h.forwarded[0] == r.(auth0 := h.forwarded[0].auth0)
    ensures !r.authenticated ==>
      h.forwarded[0].auth0 == Some(ConnectionParams(config.clientId, config.domain, r.scheme + "://" + r.host))
    ensures r.authenticated ==> h.forwarded[0] == r
  {
    var d := Decorate(r, config);
    Handled(handler(d), [d])
  }

  /** The message of the TypeError raised by calling `True`. */
  const NotCallable := "'bool' object is not callable"

  /** The middleware as written, under the Django 1.x the model's field
      declarations require: `is_authenticated` of a `SiteUser` is a property
      holding the plain `True`, so calling it raises TypeError before the
      handler runs; an anonymous user's callable false lets the request on. */
  function ConnectionMiddlewareAsWritten<R>(r: Request, config: Config, handler: Request -> R)
    : (h: Handled<Result<R>>)
    ensures r.authenticated ==> h == Handled(Err(TypeError(NotCallable)), [])
    ensures !r.authenticated ==>
      && |h.forwarded| == 1
      && h.forwarded[0].auth0 == Some(ConnectionParams(config.clientId, config.domain, r.scheme + "://" + r.host))
      && h.response == Ok(handler(h.forwarded[0]))
  {
    if r.authenticated then Handled(Err(TypeError(NotCallable)), [])
    else
      var d := Decorate(r, config);
      Handled(Ok(handler(d)), [d])
  }

  /** For an anonymous user the middleware as written is the corrected one. */
  lemma MiddlewareAgreesWhenAnonymous<R>(r: Request, config: Config, handler: Request -> R)
    requires !r.authenticated
    ensures var h := ConnectionMiddlewareAsWritten(r, config, handler);
      var c := ConnectionMiddleware(r, config, handler);
      h.forwarded == c.forwarded && h.response == Ok(c.response)
  {
  }

  /** For a request that arrives without parameters, the handler sees them
      exactly when the request's user is not authenticated. */
  lemma AttachedIffUnauthenticated<R>(r: Request, config: Config, handler: Request -> R)
    requires r.auth0.None?
    ensures ConnectionMiddleware(r, config, handler).forwarded[0].auth0.Some? <==> !r.authenticated
  {
  }
}

=== FILE: profiles.dfy ===
/** The remote profile of a site user (`Profile` in auth0user/models.py): a
    read-through cache in front of the identity provider, the name properties
    with their precedence rule, and the write-back on save. */
module Profiles {
  import opened Common

  const CachePrefix: string := "auth0user.userprofile."

  /** `Profile._get_cache_key`. */
  function CacheKey(id: string): string
  {
    CachePrefix + id
  }

  /** The id a cache key was made from. */
  function IdOfKey(key: string): string
    requires |key| >= |CachePrefix|
  {
    key[|CachePrefix|..]
  }

  /** Every key carries the fixed prefix, and the id can be read back from it,
      so distinct ids never share a cache entry. */
  lemma CacheKeyRoundTrip(id: string, other: string)
    ensures CacheKey(id)[..|CachePrefix|] == CachePrefix
    ensures IdOfKey(CacheKey(id)) == id
    ensures CacheKey(id) == CacheKey(other) <==> id == other
  {
    if CacheKey(id) == CacheKey(other) {
      assert id == CacheKey(id)[|CachePrefix|..];
      assert other == CacheKey(other)[|CachePrefix|..];
    }
  }

  /** A profile: the remote record behind it, if any, and its own attributes
      (the record's attributes copied at construction, plus later assignments). */
  datatype Profile = Profile(backing: Option<RemoteUser>, attrs: map<string, Value>)

  /** The attributes of a profile with no remote record behind it. */
  function EmptyAttrs(): map<string, Value>
  {
    map["email" := Str(""), "user_metadata" := Dict(map[]), "app_metadata" := Dict(map[])]
  }

  /** `Profile(auth0user)`: the record's attributes are copied; without a
      record the profile has an empty email and empty metadata, so both
      names read as ''. */
  function NewProfile(u: Option<RemoteUser>): (p: Profile)
    ensures p.backing == u
    ensures u.Some? ==> forall k | k in u.value.attrs :: k in p.attrs && p.attrs[k] == u.value.attrs[k]
    ensures u.None? ==> "email" in p.attrs && p.attrs["email"] == Str("") && Metadata(p) == Some(map[])
    ensures u.None? ==> GivenName(p) == Some(Str("")) && FamilyName(p) == Some(Str(""))
  {
    match u
    case Some(user) => Profile(u, user.attrs)
    case None => Profile(None, EmptyAttrs())
  }

  const EmptyProfile: Profile := NewProfile(None)

  // ---------------------------------------------------------------------------
  // Profile.get
  // ---------------------------------------------------------------------------

  /** `Profile.get(auth0_id)` as the code evidently intends it: an empty or
      missing id gives the empty profile; a cached record is used as is; on a
      miss the provider is asked and a record it returns is cached with the
      configured time-out; a failed fetch gives the empty profile and leaves
      the cache alone. */
  function GetProfile(s: State, provider: Provider, timeout: int, id: Option<string>): (r: (Profile, State))
    ensures id == None || id == Some("") ==> r == (EmptyProfile, s)
    ensures id.Some? && id.value != "" && CacheKey(id.value) in s.cache ==>
      r == (NewProfile(Some(s.cache[CacheKey(id.value)].user)), s)
    ensures id.Some? && id.value != "" && CacheKey(id.value) !in s.cache ==>
      && |r.1.effects| > |s.effects| && r.1.effects[|s.effects|] == RemoteGet(id.value)
      && match provider.fetch(id.value)
         case Some(u) =>
           && r.0 == NewProfile(Some(u))
           && r.1.cache == s.cache[CacheKey(id.value) := CacheEntry(u, timeout)]
         case None =>
           && r.0 == EmptyProfile
           && r.1.cache == s.cache
    ensures s.effects <= r.1.effects
    ensures Within(Since(s, r.1), Reading)
    ensures forall k | k in s.cache :: k in r.1.cache && r.1.cache[k] == s.cache[k]
  {
    match id
    case None => (EmptyProfile, s)
    case Some(i) =>
      if i == "" then (EmptyProfile, s)
      else
        var key := CacheKey(i);
        if key in s.cache then (NewProfile(Some(s.cache[key].user)), s)
        else
          var asked := Emit(s, RemoteGet(i));
          match provider.fetch(i)
          case Some(u) =>
            var stored := State(asked.cache[key := CacheEntry(u, timeout)], asked.effects + [CacheSet(key, u, timeout)]);
            assert Since(s, stored) == [RemoteGet(i), CacheSet(key, u, timeout)];
            assert Within([CacheSet(key, u, timeout)], Reading);
            assert Within([RemoteGet(i), CacheSet(key, u, timeout)], Reading);
            (NewProfile(Some(u)), stored)
          case None =>
            assert Since(s, asked) == [RemoteGet(i)];
            (EmptyProfile, asked)
  }

  /** `Profile.get` exactly as written: when the fetch fails, evaluating the
      `except` clause looks up `cls.objects`, which `Profile` does not have, so
      an AttributeError escapes instead of the empty profile. */
  function GetProfileAsWritten(s: State, provider: Provider, timeout: int, id: Option<string>): (r: (Result<Profile>, State))
    ensures id.Some? && id.value != "" && CacheKey(id.value) !in s.cache && provider.fetch(id.value).None? ==>
      r.0 == Err(AttributeError("objects"))
    ensures !(id.Some? && id.value != "" && CacheKey(id.value) !in s.cache && provider.fetch(id.value).None?) ==>
      r.0.Ok?
  {
    var (p, s') := GetProfile(s, provider, timeout, id);
    match id
    case Some(i) =>
      if i != "" && CacheKey(i) !in s.cache && provider.fetch(i).None? then (Err(AttributeError("objects")), s')
      else (Ok(p), s')
    case None => (Ok(p), s')
  }

  /** Wherever the fetch succeeds (or is not needed) the code as written and the
      intended reading agree. */
  lemma AsWrittenAgreesUnlessFetchFails(s: State, provider: Provider, timeout: int, id: Option<string>)
    requires !(id.Some? && id.value != "" && CacheKey(id.value) !in s.cache && provider.fetch(id.value).None?)
    ensures GetProfileAsWritten(s, provider, timeout, id) ==
      (Ok(GetProfile(s, provider, timeout, id).0), GetProfile(s, provider, timeout, id).1)
  {
  }

  /** A concrete failing fetch: an uncached id the provider cannot return makes
      the code as written raise, where the intended reading yields the empty
      profile with the cache unchanged. */
  lemma FailedFetchRaisesAsWritten(provider: Provider)
    requires provider.fetch("auth0|42") == None
    ensures GetProfileAsWritten(State(map[], []), provider, 300, Some("auth0|42")).0 == Err(AttributeError("objects"))
    ensures GetProfile(State(map[], []), provider, 300, Some("auth0|42")) == (EmptyProfile, State(map[], [RemoteGet("auth0|42")]))
  {
    var empty: map<string, CacheEntry> := map[];
    assert CacheKey("auth0|42") !in empty;
    assert Emit(State(empty, []), RemoteGet("auth0|42")) == State(empty, [RemoteGet("auth0|42")]);
  }

  /** Read-through: right after a successful fetch the same id is served from
      the cache, with no further call to the provider. */
  lemma SecondGetHitsCache(s: State, provider: Provider, timeout: int, id: string)
    requires id != "" && provider.fetch(id).Some?
    ensures var (p1, s1) := GetProfile(s, provider, timeout, Some(id));
      GetProfile(s1, provider, timeout, Some(id)) == (p1, s1)
  {
  }

  // ---------------------------------------------------------------------------
  // given_name / family_name
  // ---------------------------------------------------------------------------

  /** The profile's `user_metadata` when it is a mapping. */
  function Metadata(p: Profile): Option<map<string, Value>>
  {
    if "user_metadata" in p.attrs && p.attrs["user_metadata"].Dict? then Some(p.attrs["user_metadata"].entries)
    else None
  }

  /** The getter of the `given_name` / `family_name` properties: a top-level
      attribute beats `user_metadata`, which beats ''. `None` when reading
      `user_metadata` raises (Python evaluates that default eagerly). */
  function NameAttr(p: Profile, name: string): (r: Option<Value>)
    ensures r.Some? <==> Metadata(p).Some?
    ensures r.Some? && name !in p.attrs && name !in Metadata(p).value ==> r.value == Str("")
  {
    match Metadata(p)
    case None => None
    case Some(meta) => Some(if name in p.attrs then p.attrs[name] else GetOr(meta, name, Str("")))
  }

  /** The setter of the `given_name` / `family_name` properties: it writes into
      `user_metadata` only. */
  function SetNameAttr(p: Profile, name: string, v: Value): (r: Result<Profile>)
    ensures "user_metadata" !in p.attrs ==> r == Err(AttributeError("user_metadata"))
    ensures "user_metadata" in p.attrs && Metadata(p).None? ==> r.Err? && r.error.TypeError?
    ensures r.Ok? <==> Metadata(p).Some?
    ensures r.Ok? ==> r.value.backing == p.backing && Metadata(r.value) == Some(Metadata(p).value[name := v])
  {
    if "user_metadata" !in p.attrs then Err(AttributeError("user_metadata"))
    else match p.attrs["user_metadata"]
      case Dict(meta) => Ok(p.(attrs := p.attrs["user_metadata" := Dict(meta[name := v])]))
      case _ => Err(TypeError("item assignment"))
  }

  function GivenName(p: Profile): Option<Value> { NameAttr(p, "given_name") }
  function FamilyName(p: Profile): Option<Value> { NameAttr(p, "family_name") }
  function SetGivenName(p: Profile, v: Value): Result<Profile> { SetNameAttr(p, "given_name", v) }
  function SetFamilyName(p: Profile, v: Value): Result<Profile> { SetNameAttr(p, "family_name", v) }

  /** The read order of a name: top-level attribute, then `user_metadata`, then ''. */
  lemma NamePrecedence(p: Profile, name: string)
    requires name != "user_metadata" && Metadata(p).Some?
    ensures name in p.attrs ==> NameAttr(p, name) == Some(p.attrs[name])
    ensures name !in p.attrs && name in Metadata(p).value ==> NameAttr(p, name) == Some(Metadata(p).value[name])
    ensures name !in p.attrs && name !in Metadata(p).value ==> NameAttr(p, name) == Some(Str(""))
  {
  }

  /** After the setter, a read returns the new value only when no top-level
      attribute of that name exists; nothing but `user_metadata` changes, and
      the setter succeeds exactly when `user_metadata` is a mapping. */
  lemma SetNameThenRead(p: Profile, name: string, v: Value)
    requires name != "user_metadata"
    ensures SetNameAttr(p, name, v).Ok? <==> Metadata(p).Some?
    ensures SetNameAttr(p, name, v).Ok? ==>
      var q := SetNameAttr(p, name, v).value;
      && NameAttr(q, name) == Some(if name in p.attrs then p.attrs[name] else v)
      && q.backing == p.backing
      && q.attrs.Keys == p.attrs.Keys
      && (forall k | k in p.attrs && k != "user_metadata" :: q.attrs[k] == p.attrs[k])
      && Metadata(q) == Some(Metadata(p).value[name := v])
  {
  }

  // ---------------------------------------------------------------------------
  // Profile.save
  // ---------------------------------------------------------------------------

  /** `getattr(profile, key)`; `None` when it raises AttributeError. The two
      name properties always go through their getters. */
  function GetAttr(p: Profile, key: string): Option<Value>
  {
    if key == "given_name" || key == "family_name" then NameAttr(p, key)
    else if key in p.attrs then Some(p.attrs[key])
    else None
  }

  /** The loop of `Profile.save`: for each updatable key the profile has, set
      it on the remote record; a key the profile lacks is skipped. */
  function CopyUpdatable(u: RemoteUser, p: Profile, keys: seq<string>): (r: RemoteUser)
    ensures r.userId == u.userId && r.updatable == u.updatable
    ensures forall k :: k in r.attrs <==> k in u.attrs || (k in keys && GetAttr(p, k).Some?)
    ensures forall k | k in keys && GetAttr(p, k).Some? :: r.attrs[k] == GetAttr(p, k).value
    ensures forall k | k in u.attrs && k !in keys :: r.attrs[k] == u.attrs[k]
    ensures forall k | k in u.attrs && GetAttr(p, k).None? :: r.attrs[k] == u.attrs[k]
    decreases |keys|
  {
    if keys == [] then u
    else
      var k := keys[0];
      var u' := match GetAttr(p, k)
        case Some(v) => u.(attrs := u.attrs[k := v])
        case None => u;
      CopyUpdatable(u', p, keys[1..])
  }

  /** `Profile.save`: nothing without a remote record; otherwise copy the
      updatable attributes onto the record, cache the record under its own
      id, and only then save it remotely. */
  function SaveProfile(p: Profile, s: State, timeout: int): (r: (Profile, State))
    ensures p.backing.None? ==> r == (p, s)
    ensures p.backing.Some? ==>
      var u := p.backing.value;
      && r.0.backing.Some?
      && r.0.attrs == p.attrs
      && var saved := r.0.backing.value;
      && saved.userId == u.userId
      && r.1.cache == s.cache[CacheKey(u.userId) := CacheEntry(saved, timeout)]
      && r.1.effects == s.effects + [CacheSet(CacheKey(u.userId), saved, timeout), RemoteSave(saved)]
  {
    match p.backing
    case None => (p, s)
    case Some(u) =>
      var saved := CopyUpdatable(u, p, u.updatable);
      var key := CacheKey(saved.userId);
      (p.(backing := Some(saved)),
       State(s.cache[key := CacheEntry(saved, timeout)], s.effects + [CacheSet(key, saved, timeout), RemoteSave(saved)]))
  }

  /** A save only writes the cache and updates the remote record. */
  lemma SaveProfileKinds(p: Profile, s: State, timeout: int)
    ensures var s' := SaveProfile(p, s, timeout).1;
      s.effects <= s'.effects && Within(Since(s, s'), {CacheWrite, RemoteUpdate})
  {
    var s' := SaveProfile(p, s, timeout).1;
    if p.backing.Some? {
      var u := p.backing.value;
      assert Since(s, s')[1..] == [RemoteSave(SaveProfile(p, s, timeout).0.backing.value)];
    }
  }

  /** The saved record carries every updatable attribute the profile has a
      value for, and leaves every other attribute of the record as it was. */
  lemma SaveCopiesUpdatable(p: Profile, s: State, timeout: int)
    requires p.backing.Some?
    ensures var u := p.backing.value;
      var saved := SaveProfile(p, s, timeout).0.backing.value;
      && (forall k | k in u.updatable && GetAttr(p, k).Some? :: k in saved.attrs && saved.attrs[k] == GetAttr(p, k).value)
      && (forall k | k !in u.updatable :: (k in saved.attrs <==> k in u.attrs) && (k in u.attrs ==> saved.attrs[k] == u.attrs[k]))
  {
  }

  /** After a save, loading the same id serves the saved record from the cache
      without asking the provider. */
  lemma SaveThenGet(p: Profile, s: State, provider: Provider, timeout: int)
    requires p.backing.Some? && p.backing.value.userId != ""
    ensures var (q, s1) := SaveProfile(p, s, timeout);
      GetProfile(s1, provider, timeout, Some(p.backing.value.userId)) == (NewProfile(q.backing), s1)
  {
  }
}

=== FILE: users.dfy ===
/** The local shadow user (`SiteUser`) and its manager (`SiteUserManager`) in
    auth0user/models.py: creation against the identity provider, the
    remembered raw password, names read through the profile, and the
    natural-key lookup. */
module Users {
  import opened Common
  import opened Profiles

  /** A local user row plus the two per-instance caches the model keeps: the
      raw password remembered since the last `set_password`, and the profile
      once the `profile` property has loaded it. `fields` holds the remaining
      keyword fields (`is_staff`, `is_superuser`, ...). */
  datatype LocalUser = LocalUser(
    auth0Id: string,
    email: string,
    password: string,
    site: Value,
    fields: map<string, Value>,
    rawPassword: Option<string>,
    profile: Option<Profile>)

  /** Django's password hashing, left opaque: `make_password`, the verifier
      of the hasher that produced an encoded password, whether that encoding
      must be upgraded, and `is_password_usable`. */
  datatype Hasher = Hasher(
    make: Option<string> -> string,
    verify: (string, string) -> bool,
    mustUpdate: string -> bool,
    usable: string -> bool)

  /** The world a user lives in: the provider, the hasher, the settings, and
      the fields the concrete user model adds to the abstract `SiteUser` (its
      primary key, `is_superuser` from a permissions mixin, ...). */
  datatype Env = Env(provider: Provider, hasher: Hasher, config: Config, modelFields: set<string>)

  // ---------------------------------------------------------------------------
  // SiteUser
  // ---------------------------------------------------------------------------

  /** The `profile` property: fetched through `Profile.get` once, then reused. */
  function LoadProfile(u: LocalUser, env: Env, s: State): (r: (LocalUser, State))
    ensures r.0.profile.Some? && r.0 == u.(profile := r.0.profile)
    ensures u.profile.Some? ==> r == (u, s)
    ensures u.profile.None? ==>
      var (p, s') := GetProfile(s, env.provider, env.config.profileCacheTimeout, Some(u.auth0Id));
      r == (u.(profile := Some(p)), s')
    ensures s.effects <= r.1.effects
    ensures Within(Since(s, r.1), Reading)
  {
    match u.profile
    case Some(_) => (u, s)
    case None =>
      var (p, s') := GetProfile(s, env.provider, env.config.profileCacheTimeout, Some(u.auth0Id));
      (u.(profile := Some(p)), s')
  }

  /** `SiteUser.set_password`: store the hash, remember the raw value, and
      mirror it onto the profile (which is loaded if it was not yet). */
  function SetPassword(u: LocalUser, raw: Option<string>, env: Env, s: State): (r: (LocalUser, State))
    ensures r.0.password == env.hasher.make(raw)
    ensures r.0.rawPassword == raw
    ensures r.0.profile.Some? && "password" in r.0.profile.value.attrs
    ensures r.0.profile.value.attrs["password"] == TextValue(raw)
    ensures r.0.auth0Id == u.auth0Id && r.0.email == u.email && r.0.site == u.site && r.0.fields == u.fields
    ensures u.profile.Some? ==> r.0.profile.value.backing == u.profile.value.backing
    ensures u.profile.Some? ==> r.0.profile.value.attrs == u.profile.value.attrs["password" := TextValue(raw)]
    ensures s.effects <= r.1.effects
    ensures Within(Since(s, r.1), Reading)
  {
    var hashed := u.(password := env.hasher.make(raw), rawPassword := raw);
    var (loaded, s') := LoadProfile(hashed, env, s);
    var p := loaded.profile.value;
    (loaded.(profile := Some(p.(attrs := p.attrs["password" := TextValue(raw)]))), s')
  }

  /** `self.profile.save()`, loading the profile first if need be. */
  function SaveUserProfile(u: LocalUser, env: Env, s: State): (r: (LocalUser, State))
    ensures r.0.profile.Some? && r.0 == u.(profile := r.0.profile)
    ensures var (loaded, s1) := LoadProfile(u, env, s);
      var (p, s2) := SaveProfile(loaded.profile.value, s1, env.config.profileCacheTimeout);
      r.0.profile == Some(p) && r.1 == s2
    ensures u.profile.Some? ==> r.0.profile.value.attrs == u.profile.value.attrs
    ensures s.effects <= r.1.effects
    ensures Within(Since(s, r.1), Reading + {RemoteUpdate})
  {
    var (loaded, s1) := LoadProfile(u, env, s);
    var (p, s2) := SaveProfile(loaded.profile.value, s1, env.config.profileCacheTimeout);
    SaveProfileKinds(loaded.profile.value, s1, env.config.profileCacheTimeout);
    WithinChain(s, s1, s2, Reading, {CacheWrite, RemoteUpdate});
    assert Reading + {CacheWrite, RemoteUpdate} == Reading + {RemoteUpdate};
    (loaded.(profile := Some(p)), s2)
  }

  /** What `SiteUser.save` does after saving the profile: write the row,
      then report a pending raw password as changed. */
  function SaveTail(u: LocalUser): seq<Effect>
  {
    [DbSave(u.auth0Id, u.email, u.password)] + if u.rawPassword.Some? then [PasswordChanged(u.rawPassword.value)] else []
  }

  /** `SiteUser.save`: save the profile, then the row, then report a pending
      raw password as changed and forget it. The log ends with the row write
      and the report, and nothing saved creates a provider user. */
  function SaveUser(u: LocalUser, env: Env, s: State): (r: (LocalUser, State))
    ensures r.0.rawPassword == None
    ensures r.0.auth0Id == u.auth0Id && r.0.email == u.email && r.0.password == u.password
    ensures r.0.site == u.site && r.0.fields == u.fields
    ensures u.profile.Some? ==> r.0.profile.Some? && r.0.profile.value.attrs == u.profile.value.attrs
    ensures s.effects <= r.1.effects
    ensures |Since(s, r.1)| >= |SaveTail(u)|
    ensures Since(s, r.1)[|Since(s, r.1)| - |SaveTail(u)|..] == SaveTail(u)
    ensures Within(Since(s, r.1)[..|Since(s, r.1)| - |SaveTail(u)|], Reading + {RemoteUpdate})
    ensures var (p, s1) := SaveUserProfile(u, env, s);
      r.0 == p.(rawPassword := None) && r.1 == State(s1.cache, s1.effects + SaveTail(u))
  {
    var (saved, s1) := SaveUserProfile(u, env, s);
    var s2 := State(s1.cache, s1.effects + SaveTail(u));
    assert Since(s, s2) == Since(s, s1) + SaveTail(u);
    assert Since(s, s2)[..|Since(s, s1)|] == Since(s, s1);
    assert Since(s, s2)[|Since(s, s1)|..] == SaveTail(u);
    (saved.(rawPassword := None), s2)
  }

  /** A log that ends with the report of the raw password `raw` as changed,
      or with a row write when there is none, everything before being a
      read, a cache write, a profile update or a row write. */
  predicate ReportedLast(l: seq<Effect>, raw: Option<string>)
  {
    && |l| > 0
    && Within(l[..|l| - 1], Quiet)
    && (raw.Some? ==> l[|l| - 1] == PasswordChanged(raw.value))
    && (raw.None? ==> l[|l| - 1].DbSave?)
  }

  /** Whatever precedes the row write, if it only reads, writes the cache or
      updates profiles, then the row write and the report of `u`'s pending
      raw password are the only other entries, the report coming last. */
  lemma {:induction false} ReportComesLast(l: seq<Effect>, u: LocalUser)
    requires |l| >= |SaveTail(u)| && l[|l| - |SaveTail(u)|..] == SaveTail(u)
    requires Within(l[..|l| - |SaveTail(u)|], Reading + {RemoteUpdate})
    ensures ReportedLast(l, u.rawPassword)
  {
    var before := l[..|l| - |SaveTail(u)|];
    var row := [DbSave(u.auth0Id, u.email, u.password)];
    assert l == before + SaveTail(u);
    WithinWider(before, Reading + {RemoteUpdate}, Quiet);
    assert Within(row, Quiet);
    WithinConcat(before, row, Quiet);
    if u.rawPassword.Some? {
      assert l == (before + row) + [PasswordChanged(u.rawPassword.value)];
      assert l[..|l| - 1] == before + row;
    } else {
      assert l == before + row;
      assert l[..|l| - 1] == before;
    }
  }

  /** A save reports a password change only for the raw password remembered
      before it, and only once, as its very last step. */
  lemma SaveReportsPasswordOnce(u: LocalUser, env: Env, s: State)
    ensures var s' := SaveUser(u, env, s).1;
      s.effects <= s'.effects && ReportedLast(Since(s, s'), u.rawPassword)
  {
    ReportComesLast(Since(s, SaveUser(u, env, s).1), u);
  }

  /** A log of that shape never creates a provider user, and without a
      report it only reads, writes the cache, updates profiles and rows. */
  lemma ReportedLastKinds(l: seq<Effect>, raw: Option<string>)
    requires ReportedLast(l, raw)
    ensures Within(l, NoRemoteCreate)
    ensures raw.None? ==> Within(l, Quiet)
  {
    var last := [l[|l| - 1]];
    assert l == l[..|l| - 1] + last;
    var kinds := if raw.Some? then NoRemoteCreate else Quiet;
    WithinWider(l[..|l| - 1], Quiet, kinds);
    assert Within(last, kinds);
    WithinConcat(l[..|l| - 1], last, kinds);
    WithinWider(l, kinds, NoRemoteCreate);
  }

  /** Nothing a save logs creates a provider user; saving a user with no
      pending raw password reports no password change either. */
  lemma SaveUserKinds(u: LocalUser, env: Env, s: State)
    ensures var s' := SaveUser(u, env, s).1;
      && s.effects <= s'.effects
      && Within(Since(s, s'), NoRemoteCreate)
      && (u.rawPassword.None? ==> Within(Since(s, s'), Quiet))
  {
    SaveReportsPasswordOnce(u, env, s);
    ReportedLastKinds(Since(s, SaveUser(u, env, s).1), u.rawPassword);
  }

  /** The outcome of `check_password`, with the user and the world after it. */
  datatype Checked = Checked(ok: bool, user: LocalUser, state: State)

  /** `SiteUser.check_password`: verify against the stored hash; a correct
      password whose encoding must be upgraded is re-hashed and saved, and
      that upgrade is not reported as a password change. */
  function CheckPassword(u: LocalUser, raw: Option<string>, env: Env, s: State): (r: Checked)
    ensures r.ok <==> raw.Some? && env.hasher.usable(u.password) && env.hasher.verify(raw.value, u.password)
    ensures !(r.ok && env.hasher.mustUpdate(u.password)) ==> r.user == u && r.state == s
    ensures r.ok && env.hasher.mustUpdate(u.password) ==>
      && r.user.password == env.hasher.make(raw)
      && r.user.rawPassword == None
      && r.user.auth0Id == u.auth0Id && r.user.email == u.email
      && r.user.site == u.site && r.user.fields == u.fields
      && s.effects <= r.state.effects
  {
    if raw.None? || !env.hasher.usable(u.password) then Checked(false, u, s)
    else
      var ok := env.hasher.verify(raw.value, u.password);
      if ok && env.hasher.mustUpdate(u.password) then
        var (u1, s1) := SetPassword(u, raw, env, s);
        var (u2, s2) := SaveUser(u1.(rawPassword := None), env, s1);
        SinceChain(s, s1, s2);
        Checked(true, u2, s2)
      else Checked(ok, u, s)
  }

  /** A hash upgrade saves the row with the new hash and neither reports a
      password change nor creates a provider user. */
  lemma UpgradeIsQuiet(u: LocalUser, raw: Option<string>, env: Env, s: State)
    requires raw.Some? && env.hasher.usable(u.password) && env.hasher.verify(raw.value, u.password)
    requires env.hasher.mustUpdate(u.password)
    ensures var r := CheckPassword(u, raw, env, s);
      && s.effects <= r.state.effects
      && DbSave(u.auth0Id, u.email, env.hasher.make(raw)) in Since(s, r.state)
      && Within(Since(s, r.state), Quiet)
  {
    var (u1, s1) := SetPassword(u, raw, env, s);
    var forgotten := u1.(rawPassword := None);
    var (u2, s2) := SaveUser(forgotten, env, s1);
    assert CheckPassword(u, raw, env, s).state == s2;
    var row := DbSave(u.auth0Id, u.email, env.hasher.make(raw));
    assert SaveTail(forgotten) == [row];
    assert Since(s1, s2)[|Since(s1, s2)| - 1] == row;
    SaveUserKinds(forgotten, env, s1);
    WithinChain(s, s1, s2, Reading, Quiet);
    assert Reading + Quiet == Quiet;
    SinceChain(s, s1, s2);
    assert Since(s, s2)[|Since(s, s2)| - 1] == row;
  }

  /** Setting a password and saving reports exactly that raw password as
      changed, after the row is saved, and leaves nothing remembered. */
  lemma SetPasswordThenSave(u: LocalUser, raw: string, env: Env, s: State)
    ensures var (u1, s1) := SetPassword(u, Some(raw), env, s);
      var (u2, s2) := SaveUser(u1, env, s1);
      && s.effects <= s2.effects
      && u2.rawPassword == None
      && u2.password == env.hasher.make(Some(raw))
      && Since(s, s2)[|Since(s, s2)| - 1] == PasswordChanged(raw)
      && Since(s, s2)[|Since(s, s2)| - 2] == DbSave(u.auth0Id, u.email, env.hasher.make(Some(raw)))
  {
    var (u1, s1) := SetPassword(u, Some(raw), env, s);
    var (u2, s2) := SaveUser(u1, env, s1);
    SinceChain(s, s1, s2);
    var row := DbSave(u.auth0Id, u.email, env.hasher.make(Some(raw)));
    assert SaveTail(u1) == [row, PasswordChanged(raw)];
    var tail := Since(s1, s2);
    assert tail[|tail| - 2..] == [row, PasswordChanged(raw)];
    var logged := Since(s, s2);
    assert logged[|logged| - 1] == tail[|tail| - 1];
    assert logged[|logged| - 2] == tail[|tail| - 2];
  }

  /** `'%s %s' % (first, last)` with surrounding whitespace stripped. */
  function FullName(first: Value, last: Value): (r: string)
    ensures Trimmed(r)
  {
    Strip(Display(first) + " " + Display(last))
  }

  /** The full name joins the two names with one space, and drops the space
      when either name is empty. */
  lemma FullNameJoins(first: Value, last: Value)
    requires Trimmed(Display(first)) && Trimmed(Display(last))
    ensures Display(first) != "" && Display(last) != "" ==> FullName(first, last) == Display(first) + " " + Display(last)
    ensures Display(first) == "" ==> FullName(first, last) == Display(last)
    ensures Display(last) == "" ==> FullName(first, last) == Display(first)
  {
    var a, b := Display(first), Display(last);
    if a != "" && b != "" {
      var m := a + " " + b;
      assert m[0] == a[0] && m[|m| - 1] == b[|b| - 1];
      assert "" + m + "" == m;
      StripAround("", m, "");
    } else if a == "" && b != "" {
      assert a + " " + b == " " + b + "";
      StripAround(" ", b, "");
    } else if a != "" && b == "" {
      assert a + " " + b == "" + a + " ";
      StripAround("", a, " ");
    } else {
      assert AllSpace(a + " " + b) by {
        assert a + " " + b == " ";
      }
    }
  }

  /** `SiteUser.get_full_name`, reading both names through the profile.
      `None` when reading a name raises. */
  function GetFullName(u: LocalUser, env: Env, s: State): (r: (Option<string>, LocalUser, State))
    ensures r.1.profile.Some? && r.1 == u.(profile := r.1.profile)
    ensures (r.1, r.2) == LoadProfile(u, env, s)
    ensures r.0.Some? <==> Metadata(r.1.profile.value).Some?
    ensures r.0.Some? ==> Trimmed(r.0.value)
    ensures r.0.Some? ==>
      r.0.value == FullName(GivenName(r.1.profile.value).value, FamilyName(r.1.profile.value).value)
  {
    var (loaded, s') := LoadProfile(u, env, s);
    var p := loaded.profile.value;
    match (GivenName(p), FamilyName(p))
    case (Some(first), Some(last)) => (Some(FullName(first, last)), loaded, s')
    case _ => (None, loaded, s')
  }

  /** `SiteUser.get_short_name`: the first name, read through the profile. */
  function GetShortName(u: LocalUser, env: Env, s: State): (r: (Option<Value>, LocalUser, State))
    ensures r.1.profile.Some? && r.1 == u.(profile := r.1.profile)
    ensures (r.1, r.2) == LoadProfile(u, env, s)
    ensures r.0.Some? <==> Metadata(r.1.profile.value).Some?
  {
    var (loaded, s') := LoadProfile(u, env, s);
    (GivenName(loaded.profile.value), loaded, s')
  }

  /** With no family name the full name is the short name, stripped. */
  lemma ShortNameWithoutFamilyName(u: LocalUser, env: Env, s: State)
    requires GetShortName(u, env, s).0.Some?
    requires Display(FamilyName(GetShortName(u, env, s).1.profile.value).value) == ""
    ensures GetFullName(u, env, s).0 == Some(Strip(Display(GetShortName(u, env, s).0.value)))
  {
    var first := GetShortName(u, env, s).0.value;
    assert Display(first) + " " + "" == Display(first) + " ";
    StripTrailingSpace(Display(first));
  }

  /** `SiteUser.natural_key`: the username (the email) and the site, which is
      what a lookup by natural key compares a row against. */
  function NaturalKey(u: LocalUser): (k: (Value, Value))
    ensures RowMatches(u, k.0, k.1)
    ensures forall v: LocalUser :: RowMatches(v, k.0, k.1) <==> v.email == u.email && v.site == u.site
  {
    (Str(u.email), u.site)
  }

  // ---------------------------------------------------------------------------
  // SiteUserManager
  // ---------------------------------------------------------------------------

  /** The outcome of a Django `get()`. */
  datatype Lookup = Found(user: LocalUser) | DoesNotExist | MultipleFound

  /** Whether a row has the given email and site. */
  predicate RowMatches(u: LocalUser, email: Value, site: Value)
  {
    Str(u.email) == email && u.site == site
  }

  /** The rows with the given email and site, in store order. */
  function Filter(store: seq<LocalUser>, email: Value, site: Value): (r: seq<LocalUser>)
    ensures forall x :: multiset(r)[x] == if RowMatches(x, email, site) then multiset(store)[x] else 0
    ensures forall x | x in r :: x in store && RowMatches(x, email, site)
  {
    if store == [] then []
    else
      var rest := Filter(store[1..], email, site);
      assert store == [store[0]] + store[1..];
      if RowMatches(store[0], email, site) then [store[0]] + rest else rest
  }

  /** `objects.get(email=..., site_id=...)`. */
  function GetByEmail(store: seq<LocalUser>, email: Value, site: Value): (r: Lookup)
    ensures r.Found? ==> r.user in store && RowMatches(r.user, email, site)
    ensures r.DoesNotExist? <==> forall x | x in store :: !RowMatches(x, email, site)
    ensures r.Found? <==> |Filter(store, email, site)| == 1
    ensures r.MultipleFound? <==> |Filter(store, email, site)| >= 2
  {
    var rows := Filter(store, email, site);
    if |rows| == 0 then
      assert forall x | x in store :: multiset(rows)[x] == 0;
      DoesNotExist
    else if |rows| == 1 then Found(rows[0])
    else MultipleFound
  }

  /** `SiteUserManager.get_by_natural_key`: the supplied id is matched
      against the username column, which is the email. */
  function GetByNaturalKey(store: seq<LocalUser>, id: Value, site: Value): (r: Lookup)
    ensures r.Found? ==> r.user in store && NaturalKey(r.user) == (id, site)
    ensures r.DoesNotExist? <==> forall x | x in store :: NaturalKey(x) != (id, site)
    ensures r.Found? <==> |Filter(store, id, site)| == 1
    ensures r.MultipleFound? <==> |Filter(store, id, site)| >= 2
  {
    GetByEmail(store, id, site)
  }

  /** A user that is the only row with its natural key is found by it. */
  lemma NaturalKeyRoundTrip(store: seq<LocalUser>, u: LocalUser)
    requires multiset(store)[u] == 1
    requires forall x | x in store && RowMatches(x, NaturalKey(u).0, NaturalKey(u).1) :: x == u
    ensures GetByNaturalKey(store, NaturalKey(u).0, NaturalKey(u).1) == Found(u)
  {
    var rows := Filter(store, NaturalKey(u).0, NaturalKey(u).1);
    assert multiset(rows) == multiset{u} by {
      forall x
        ensures multiset(rows)[x] == multiset{u}[x]
      {
      }
    }
    assert |rows| == |multiset(rows)| == 1;
    assert rows[0] in multiset(rows);
  }

  /** The external id is not what the lookup compares: a user whose `auth0_id`
      is the id looked up, but whose email differs, is not found. */
  lemma LookupIgnoresExternalId(u: LocalUser, site: Value)
    requires u.auth0Id == "auth0|42" && u.email == "a@b.com" && u.site == site
    ensures GetByNaturalKey([u], Str(u.auth0Id), site) == DoesNotExist
  {
  }

  // ---------------------------------------------------------------------------
  // Creating users
  // ---------------------------------------------------------------------------

  /** The keys `_create_user` pops before building the row. */
  const PoppedKeys: set<string> := {"auth0user", "email_verified"}

  /** The `defaults` handed to the provider's `get_or_create`. */
  function RemoteDefaults(emailVerified: Value, password: Option<string>, rest: map<string, Value>): map<string, Value>
  {
    map[
      "email_verified" := emailVerified,
      "password" := TextValue(password),
      "user_metadata" := Dict(map[
        "given_name" := GetOr(rest, "first_name", Str("")),
        "family_name" := GetOr(rest, "last_name", Str(""))])]
  }

  /** The user id `_create_user` takes from the supplied or the provider's record. */
  function RemoteIdOf(email: string, password: Option<string>, extra: map<string, Value>, env: Env): Option<string>
  {
    var supplied := GetOr(extra, "auth0user", Null);
    if Truthy(supplied) then
      if supplied.Record? then Some(supplied.user.userId) else None
    else
      var defaults := RemoteDefaults(GetOr(extra, "email_verified", Bool(false)), password, extra - PoppedKeys);
      match env.provider.getOrCreate(email, defaults)
      case Some(ru) => Some(ru.userId)
      case None => None
  }

  /** The remote record `_create_user` builds on: the one supplied by the
      caller, or the provider's get-or-create by email. */
  function ResolveRemote(email: string, password: Option<string>, extra: map<string, Value>, env: Env, s: State): (r: (Result<RemoteUser>, State))
    ensures s.effects <= r.1.effects && r.1.cache == s.cache
    ensures Truthy(GetOr(extra, "auth0user", Null)) ==> r.1 == s
    ensures !Truthy(GetOr(extra, "auth0user", Null)) ==>
      Since(s, r.1) == [RemoteGetOrCreate(email, RemoteDefaults(GetOr(extra, "email_verified", Bool(false)), password, extra - PoppedKeys))]
    ensures r.0.Ok? <==> RemoteIdOf(email, password, extra, env).Some?
    ensures r.0.Ok? ==> RemoteIdOf(email, password, extra, env) == Some(r.0.value.userId)
  {
    var supplied := GetOr(extra, "auth0user", Null);
    if Truthy(supplied) then
      match supplied
      case Record(ru) => (Ok(ru), s)
      case _ => (Err(AttributeError("user_id")), s)
    else
      var defaults := RemoteDefaults(GetOr(extra, "email_verified", Bool(false)), password, extra - PoppedKeys);
      var s' := Emit(s, RemoteGetOrCreate(email, defaults));
      match env.provider.getOrCreate(email, defaults)
      case Some(ru) => (Ok(ru), s')
      case None => (Err(Auth0Error), s')
  }

  // ---------------------------------------------------------------------------
  // The model constructor
  // ---------------------------------------------------------------------------

  /** The fields `SiteUser` declares, under the keyword names Django's model
      constructor takes them by (the site foreign key also as `site_id`). */
  const SiteUserFields: set<string> :=
    {"auth0_id", "email", "password", "is_staff", "is_active", "site", "site_id",
     "date_joined", "last_login", "created", "modified"}

  /** Whether the constructor stores keyword `k` as a field. */
  predicate IsField(env: Env, k: string)
  {
    k in SiteUserFields || k in env.modelFields
  }

  /** The two properties of `SiteUser` with setters, which the constructor
      assigns through them. */
  predicate IsNameKeyword(k: string)
  {
    k == "first_name" || k == "last_name"
  }

  predicate HasNameKeyword(rest: map<string, Value>)
  {
    "first_name" in rest || "last_name" in rest
  }

  /** Whether a keyword is neither a field nor a name property; the
      constructor refuses it. */
  predicate HasUnknownKeyword(rest: map<string, Value>, env: Env)
  {
    exists k | k in rest :: !IsField(env, k) && !IsNameKeyword(k)
  }

  /** Whether a keyword repeats one `_create_user` passes itself. */
  predicate RepeatsKeyword(rest: map<string, Value>)
  {
    "auth0_id" in rest || "email" in rest
  }

  /** The field values a new row takes from the keywords: all fields but the
      site, which the row keeps apart, and the password, which `set_password`
      overwrites straight after. */
  function FieldKeywords(rest: map<string, Value>, env: Env): map<string, Value>
  {
    map k | k in rest && IsField(env, k) && k != "site_id" && k != "password" :: rest[k]
  }

  const UnexpectedKeyword := "got an unexpected keyword argument"
  const RepeatedKeyword := "got multiple values for keyword argument"

  /** One name setter as the constructor runs it: an AttributeError from the
      setter is swallowed and the keyword is then refused as unexpected; any
      other error escapes as it is. */
  function ConstructorSetter(p: Profile, name: string, v: Value): (r: Result<Profile>)
    ensures r.Ok? <==> Metadata(p).Some?
    ensures r.Err? ==> r.error.TypeError?
    ensures "user_metadata" !in p.attrs ==> r == Err(TypeError(UnexpectedKeyword))
    ensures r.Ok? ==> r == SetNameAttr(p, name, v)
  {
    match SetNameAttr(p, name, v)
    case Ok(q) => Ok(q)
    case Err(e) => Err(if e.AttributeError? then TypeError(UnexpectedKeyword) else e)
  }

  /** The setters of `first_name` (the profile's `given_name`) and
      `last_name` (its `family_name`), for the keywords given. The two write
      different entries of the same mapping, so their order does not matter. */
  function SetNameKeywords(p: Profile, rest: map<string, Value>): (r: Result<Profile>)
    ensures r.Ok? <==> !HasNameKeyword(rest) || Metadata(p).Some?
    ensures r.Err? ==> r.error.TypeError?
    ensures !HasNameKeyword(rest) ==> r == Ok(p)
    ensures r.Ok? && HasNameKeyword(rest) ==>
      && r.value.backing == p.backing
      && Metadata(r.value).Some?
      && ("first_name" in rest ==> "given_name" in Metadata(r.value).value
                                   && Metadata(r.value).value["given_name"] == rest["first_name"])
      && ("last_name" in rest ==> "family_name" in Metadata(r.value).value
                                  && Metadata(r.value).value["family_name"] == rest["last_name"])
  {
    var first := if "first_name" in rest then ConstructorSetter(p, "given_name", rest["first_name"]) else Ok(p);
    match first
    case Err(e) => Err(e)
    case Ok(q) =>
      if "last_name" in rest then ConstructorSetter(q, "family_name", rest["last_name"]) else Ok(q)
  }

  /** `self.model(auth0_id=..., email=..., **rest)`: the fields are stored; a
      name keyword loads the profile and goes through its setter; a keyword
      repeating `auth0_id` or `email`, or one that is neither a field nor a
      name, is a TypeError. */
  function NewLocalUser(auth0Id: string, email: string, rest: map<string, Value>, env: Env, s: State)
    : (r: (Result<LocalUser>, State))
    ensures s.effects <= r.1.effects && Within(Since(s, r.1), Reading)
    ensures RepeatsKeyword(rest) ==> r == (Err(TypeError(RepeatedKeyword)), s)
    ensures !HasNameKeyword(rest) ==> r.1 == s
    ensures r.0.Err? ==> r.0.error.TypeError?
    ensures r.0.Ok? ==> !RepeatsKeyword(rest) && !HasUnknownKeyword(rest, env)
    ensures !RepeatsKeyword(rest) && !HasUnknownKeyword(rest, env) && !HasNameKeyword(rest) ==> r.0.Ok?
    ensures !RepeatsKeyword(rest) && HasNameKeyword(rest) ==>
      (r.0.Ok? <==> !HasUnknownKeyword(rest, env)
                    && Metadata(GetProfile(s, env.provider, env.config.profileCacheTimeout, Some(auth0Id)).0).Some?)
    ensures r.0.Ok? ==>
      var u := r.0.value;
      && u.auth0Id == auth0Id && u.email == email && u.rawPassword == None
      && u.site == GetOr(rest, "site_id", DefaultSite(env.config))
      && u.fields == FieldKeywords(rest, env)
      && (!HasNameKeyword(rest) ==> u.profile.None?)
      && (HasNameKeyword(rest) ==> u.profile.Some? && Metadata(u.profile.value).Some?)
  {
    if RepeatsKeyword(rest) then (Err(TypeError(RepeatedKeyword)), s)
    else
      var row := LocalUser(auth0Id, email, "", GetOr(rest, "site_id", DefaultSite(env.config)),
                           FieldKeywords(rest, env), None, None);
      if !HasNameKeyword(rest) then
        if HasUnknownKeyword(rest, env) then (Err(TypeError(UnexpectedKeyword)), s) else (Ok(row), s)
      else
        var (loaded, s1) := LoadProfile(row, env, s);
        match SetNameKeywords(loaded.profile.value, rest)
        case Err(e) => (Err(e), s1)
        case Ok(p) =>
          if HasUnknownKeyword(rest, env) then (Err(TypeError(UnexpectedKeyword)), s1)
          else (Ok(loaded.(profile := Some(p))), s1)
  }

  /** Names given to the constructor end up in the new user's profile
      metadata, where the profile getters find them unless the remote record
      carries a top-level attribute of the same name. */
  lemma NamesReachProfile(auth0Id: string, email: string, rest: map<string, Value>, env: Env, s: State)
    requires NewLocalUser(auth0Id, email, rest, env, s).0.Ok? && HasNameKeyword(rest)
    ensures var u := NewLocalUser(auth0Id, email, rest, env, s).0.value;
      && u.profile.Some?
      && ("first_name" in rest ==> NameInMetadata(u.profile.value, "given_name", rest["first_name"]))
      && ("last_name" in rest ==> NameInMetadata(u.profile.value, "family_name", rest["last_name"]))
  {
    var row := LocalUser(auth0Id, email, "", GetOr(rest, "site_id", DefaultSite(env.config)),
                         FieldKeywords(rest, env), None, None);
    var (loaded, s1) := LoadProfile(row, env, s);
    var q := SetNameKeywords(loaded.profile.value, rest);
    assert NewLocalUser(auth0Id, email, rest, env, s).0.value.profile == Some(q.value);
  }

  /** Whether `user_metadata` holds `v` under `name`. */
  predicate NameInMetadata(p: Profile, name: string, v: Value)
  {
    Metadata(p).Some? && name in Metadata(p).value && Metadata(p).value[name] == v
  }

  /** Whether the row's fields carry both flags as the keywords gave them. */
  predicate FlagsKept(rest: map<string, Value>, fields: map<string, Value>)
  {
    && "is_staff" in rest && "is_staff" in fields && fields["is_staff"] == rest["is_staff"]
    && "is_superuser" in rest && "is_superuser" in fields && fields["is_superuser"] == rest["is_superuser"]
  }

  /** When the constructor accepts every keyword, the two flags the manager
      always passes are among the row's fields with their values. */
  lemma FlagFieldsAccepted(rest: map<string, Value>, env: Env, fields: map<string, Value>)
    requires "is_staff" in rest && "is_superuser" in rest
    requires fields == FieldKeywords(rest, env) && !HasUnknownKeyword(rest, env)
    ensures FlagsKept(rest, fields)
  {
    assert IsField(env, "is_superuser");
  }

  /** The outcome of a creation, with the world after it. */
  datatype Created = Created(result: Result<LocalUser>, state: State)

  /** The row `_create_user` builds on the remote record `ru`: constructed
      from the remaining keywords, its password set, and saved. A refused
      keyword ends it before anything is saved. */
  function BuildAndSave(ru: RemoteUser, email: string, password: Option<string>, rest: map<string, Value>, env: Env, s: State)
    : (r: (Result<LocalUser>, State))
    ensures r.0.Ok? <==> NewLocalUser(ru.userId, email, rest, env, s).0.Ok?
    ensures r.0.Err? ==> r == NewLocalUser(ru.userId, email, rest, env, s) && r.0.error.TypeError?
    ensures r.0.Ok? ==>
      var u := r.0.value;
      && u.auth0Id == ru.userId
      && u.email == email
      && u.password == env.hasher.make(password)
      && u.rawPassword == None
      && u.site == GetOr(rest, "site_id", DefaultSite(env.config))
      && u.fields == FieldKeywords(rest, env)
    ensures s.effects <= r.1.effects
  {
    var (built, s1) := NewLocalUser(ru.userId, email, rest, env, s);
    match built
    case Err(e) => (Err(e), s1)
    case Ok(row) =>
      var (u1, s2) := SetPassword(row, password, env, s1);
      var (u2, s3) := SaveUser(u1, env, s2);
      SinceChain(s1, s2, s3);
      SinceChain(s, s1, s3);
      (Ok(u2), s3)
  }

  /** Names given as keywords are in the saved user's profile metadata. */
  lemma BuildAndSaveKeepsNames(ru: RemoteUser, email: string, password: Option<string>, rest: map<string, Value>, env: Env, s: State)
    requires BuildAndSave(ru, email, password, rest, env, s).0.Ok? && HasNameKeyword(rest)
    ensures var u := BuildAndSave(ru, email, password, rest, env, s).0.value;
      && u.profile.Some?
      && ("first_name" in rest ==> NameInMetadata(u.profile.value, "given_name", rest["first_name"]))
      && ("last_name" in rest ==> NameInMetadata(u.profile.value, "family_name", rest["last_name"]))
  {
    var (built, s1) := NewLocalUser(ru.userId, email, rest, env, s);
    NamesReachProfile(ru.userId, email, rest, env, s);
    var row := built.value;
    var (u1, s2) := SetPassword(row, password, env, s1);
    var (u2, s3) := SaveUser(u1, env, s2);
    assert BuildAndSave(ru, email, password, rest, env, s).0 == Ok(u2);
    assert Metadata(u2.profile.value) == Metadata(u1.profile.value) == Metadata(row.profile.value);
  }

  /** Building the row never creates a provider user. */
  lemma BuildAndSaveKinds(ru: RemoteUser, email: string, password: Option<string>, rest: map<string, Value>, env: Env, s: State)
    ensures var s' := BuildAndSave(ru, email, password, rest, env, s).1;
      s.effects <= s'.effects && Within(Since(s, s'), NoRemoteCreate)
  {
    var (built, s1) := NewLocalUser(ru.userId, email, rest, env, s);
    WithinWider(Since(s, s1), Reading, NoRemoteCreate);
    if built.Ok? {
      var (u1, s2) := SetPassword(built.value, password, env, s1);
      var (u2, s3) := SaveUser(u1, env, s2);
      assert BuildAndSave(ru, email, password, rest, env, s).1 == s3;
      SaveUserKinds(u1, env, s2);
      WithinChain(s1, s2, s3, Reading, NoRemoteCreate);
      assert Reading + NoRemoteCreate == NoRemoteCreate;
      WithinChain(s, s1, s3, NoRemoteCreate, NoRemoteCreate);
      assert NoRemoteCreate + NoRemoteCreate == NoRemoteCreate;
    }
  }

  /** A given password is reported as changed as the very last step of
      building the row. */
  lemma BuildAndSaveReportsLast(ru: RemoteUser, email: string, password: Option<string>, rest: map<string, Value>, env: Env, s: State)
    requires password.Some? && BuildAndSave(ru, email, password, rest, env, s).0.Ok?
    ensures var s' := BuildAndSave(ru, email, password, rest, env, s).1;
      s.effects <= s'.effects && |Since(s, s')| > 0 && Since(s, s')[|Since(s, s')| - 1] == PasswordChanged(password.value)
  {
    var (built, s1) := NewLocalUser(ru.userId, email, rest, env, s);
    var (u1, s2) := SetPassword(built.value, password, env, s1);
    var (u2, s3) := SaveUser(u1, env, s2);
    assert BuildAndSave(ru, email, password, rest, env, s).1 == s3;
    SaveReportsPasswordOnce(u1, env, s2);
    var tail := Since(s2, s3);
    assert tail[|tail| - 1] == PasswordChanged(password.value);
    SinceChain(s1, s2, s3);
    SinceChain(s, s1, s3);
    assert Since(s, s3)[|Since(s, s3)| - 1] == tail[|tail| - 1];
  }

  /** `SiteUserManager._create_user`: an empty email is refused before
      anything happens; without a supplied remote record the provider's
      get-or-create comes first; the row is constructed and saved last. */
  function CreateUserCore(email: string, password: Option<string>, extra: map<string, Value>, env: Env, s: State): (r: Created)
    ensures email == "" ==> r == Created(Err(ValueError("The email must be set")), s)
    ensures s.effects <= r.state.effects
    ensures r.result.Ok? ==> RemoteIdOf(email, password, extra, env).Some?
    ensures r.result.Ok? ==> !RepeatsKeyword(extra - PoppedKeys) && !HasUnknownKeyword(extra - PoppedKeys, env)
    ensures (email != "" && RemoteIdOf(email, password, extra, env).Some? && !RepeatsKeyword(extra - PoppedKeys)
             && !HasUnknownKeyword(extra - PoppedKeys, env) && !HasNameKeyword(extra - PoppedKeys)) ==> r.result.Ok?
    ensures (email != "" && RemoteIdOf(email, password, extra, env).Some?
             && (RepeatsKeyword(extra - PoppedKeys) || HasUnknownKeyword(extra - PoppedKeys, env))) ==>
      r.result.Err? && r.result.error.TypeError?
    ensures r.result.Ok? ==>
      var u := r.result.value;
      && Some(u.auth0Id) == RemoteIdOf(email, password, extra, env)
      && u.email == email
      && u.password == env.hasher.make(password)
      && u.rawPassword == None
      && u.site == GetOr(extra - PoppedKeys, "site_id", DefaultSite(env.config))
      && u.fields == FieldKeywords(extra - PoppedKeys, env)
  {
    if email == "" then Created(Err(ValueError("The email must be set")), s)
    else
      var (remote, s1) := ResolveRemote(email, password, extra, env, s);
      match remote
      case Err(e) => Created(Err(e), s1)
      case Ok(ru) =>
        var (u, s2) := BuildAndSave(ru, email, password, extra - PoppedKeys, env, s1);
        SinceChain(s, s1, s2);
        Created(u, s2)
  }

  /** With a remote record supplied as `auth0user`, creating a user never
      asks the provider to create one. */
  lemma CreateWithSuppliedRemote(email: string, password: Option<string>, extra: map<string, Value>, env: Env, s: State)
    requires Truthy(GetOr(extra, "auth0user", Null))
    ensures var r := CreateUserCore(email, password, extra, env, s);
      Within(Since(s, r.state), NoRemoteCreate)
  {
    if email != "" {
      var (remote, s1) := ResolveRemote(email, password, extra, env, s);
      assert s1 == s;
      if remote.Ok? {
        var (u, s2) := BuildAndSave(remote.value, email, password, extra - PoppedKeys, env, s1);
        assert CreateUserCore(email, password, extra, env, s).state == s2;
        BuildAndSaveKinds(remote.value, email, password, extra - PoppedKeys, env, s1);
      }
    }
  }

  /** Without one, the first thing a creation does is the provider's
      get-or-create for the email, with the defaults `_create_user` builds. */
  lemma CreateAsksProviderFirst(email: string, password: Option<string>, extra: map<string, Value>, env: Env, s: State)
    requires email != "" && !Truthy(GetOr(extra, "auth0user", Null))
    ensures var r := CreateUserCore(email, password, extra, env, s);
      && |Since(s, r.state)| > 0
      && Since(s, r.state)[0] == RemoteGetOrCreate(email,
           RemoteDefaults(GetOr(extra, "email_verified", Bool(false)), password, extra - PoppedKeys))
  {
    var (remote, s1) := ResolveRemote(email, password, extra, env, s);
    var r := CreateUserCore(email, password, extra, env, s);
    if remote.Ok? {
      var (u, s2) := BuildAndSave(remote.value, email, password, extra - PoppedKeys, env, s1);
      assert r.state == s2;
      SinceChain(s, s1, s2);
    }
  }

  /** A created user's password is reported as changed, as the very last step. */
  lemma CreateReportsPasswordLast(email: string, password: Option<string>, extra: map<string, Value>, env: Env, s: State)
    requires password.Some?
    ensures var r := CreateUserCore(email, password, extra, env, s);
      r.result.Ok? ==> |Since(s, r.state)| > 0 && Since(s, r.state)[|Since(s, r.state)| - 1] == PasswordChanged(password.value)
  {
    if email != "" {
      var (remote, s1) := ResolveRemote(email, password, extra, env, s);
      if remote.Ok? {
        var (u, s2) := BuildAndSave(remote.value, email, password, extra - PoppedKeys, env, s1);
        if u.Ok? {
          BuildAndSaveReportsLast(remote.value, email, password, extra - PoppedKeys, env, s1);
          SinceChain(s, s1, s2);
          var tail := Since(s1, s2);
          assert Since(s, s2)[|Since(s, s2)| - 1] == tail[|tail| - 1];
        }
      }
    }
  }

  /** The keyword fields `create_user` passes on: caller values kept, and
      `is_staff`, `is_superuser` defaulting to False, `site_id` to SITE_ID. */
  function UserDefaults(extra: map<string, Value>, config: Config): (r: map<string, Value>)
    ensures r.Keys == extra.Keys + {"is_staff", "is_superuser", "site_id"}
    ensures r["is_staff"] == GetOr(extra, "is_staff", Bool(false))
    ensures r["is_superuser"] == GetOr(extra, "is_superuser", Bool(false))
    ensures r["site_id"] == GetOr(extra, "site_id", DefaultSite(config))
    ensures forall k | k in extra :: r[k] == extra[k]
  {
    var a := SetDefault(extra, "is_staff", Bool(false));
    var b := SetDefault(a, "is_superuser", Bool(false));
    assert b["is_staff"] == a["is_staff"];
    SetDefault(b, "site_id", DefaultSite(config))
  }

  /** `SiteUserManager.create_user`. */
  function CreateUser(email: string, password: Option<string>, extra: map<string, Value>, env: Env, s: State): (r: Created)
    ensures email == "" ==> r == Created(Err(ValueError("The email must be set")), s)
    ensures email != "" ==> r == CreateUserCore(email, password, UserDefaults(extra, env.config), env, s)
    ensures r.result.Ok? ==>
      var u := r.result.value;
      && u.email == email
      && "is_staff" in u.fields && u.fields["is_staff"] == GetOr(extra, "is_staff", Bool(false))
      && "is_superuser" in u.fields && u.fields["is_superuser"] == GetOr(extra, "is_superuser", Bool(false))
      && u.site == GetOr(extra, "site_id", DefaultSite(env.config))
      && u.password == env.hasher.make(password)
  {
    var fields := UserDefaults(extra, env.config);
    var rest := fields - PoppedKeys;
    assert rest["is_staff"] == fields["is_staff"] && rest["is_superuser"] == fields["is_superuser"];
    assert GetOr(rest, "site_id", DefaultSite(env.config)) == fields["site_id"];
    var r := CreateUserCore(email, password, fields, env, s);
    assert r.result.Ok? ==> FlagsKept(rest, r.result.value.fields) by {
      if r.result.Ok? {
        FlagFieldsAccepted(rest, env, r.result.value.fields);
      }
    }
    r
  }

  /** The keyword fields `create_superuser` checks and passes on. */
  function SuperuserDefaults(extra: map<string, Value>, config: Config): (r: map<string, Value>)
    ensures r.Keys == extra.Keys + {"is_staff", "is_superuser", "site_id", "email_verified"}
    ensures r["is_staff"] == GetOr(extra, "is_staff", Bool(true))
    ensures r["is_superuser"] == GetOr(extra, "is_superuser", Bool(true))
    ensures r["site_id"] == GetOr(extra, "site_id", DefaultSite(config))
    ensures r["email_verified"] == GetOr(extra, "email_verified", Bool(true))
    ensures forall k | k in extra :: r[k] == extra[k]
  {
    var a := SetDefault(extra, "is_staff", Bool(true));
    var b := SetDefault(a, "is_superuser", Bool(true));
    assert b["is_staff"] == a["is_staff"];
    var c := SetDefault(b, "site_id", DefaultSite(config));
    assert c["is_staff"] == b["is_staff"] && c["is_superuser"] == b["is_superuser"];
    SetDefault(c, "email_verified", Bool(true))
  }

  /** `SiteUserManager.create_superuser`: both flags must be exactly `True`
      (an explicit False, 1 or None is refused before anything happens). */
  function CreateSuperuser(email: string, password: Option<string>, extra: map<string, Value>, env: Env, s: State): (r: Created)
    ensures GetOr(extra, "is_staff", Bool(true)) != Bool(true) ==>
      r == Created(Err(ValueError("Superuser must have is_staff=True.")), s)
    ensures GetOr(extra, "is_staff", Bool(true)) == Bool(true) && GetOr(extra, "is_superuser", Bool(true)) != Bool(true) ==>
      r == Created(Err(ValueError("Superuser must have is_superuser=True.")), s)
    ensures GetOr(extra, "is_staff", Bool(true)) == Bool(true) && GetOr(extra, "is_superuser", Bool(true)) == Bool(true) ==>
      r == CreateUserCore(email, password, SuperuserDefaults(extra, env.config), env, s)
    ensures r.result.Ok? ==>
      var u := r.result.value;
      && u.email == email
      && "is_staff" in u.fields && u.fields["is_staff"] == Bool(true)
      && "is_superuser" in u.fields && u.fields["is_superuser"] == Bool(true)
      && u.site == GetOr(extra, "site_id", DefaultSite(env.config))
      && u.password == env.hasher.make(password)
  {
    var fields := SuperuserDefaults(extra, env.config);
    if fields["is_staff"] != Bool(true) then Created(Err(ValueError("Superuser must have is_staff=True.")), s)
    else if fields["is_superuser"] != Bool(true) then Created(Err(ValueError("Superuser must have is_superuser=True.")), s)
    else
      var rest := fields - PoppedKeys;
      assert rest["is_staff"] == fields["is_staff"] && rest["is_superuser"] == fields["is_superuser"];
      assert GetOr(rest, "site_id", DefaultSite(env.config)) == fields["site_id"];
      var r := CreateUserCore(email, password, fields, env, s);
      assert r.result.Ok? ==> FlagsKept(rest, r.result.value.fields) by {
        if r.result.Ok? {
          FlagFieldsAccepted(rest, env, r.result.value.fields);
        }
      }
      r
  }

  /** Without a supplied remote record, `create_superuser` asks the provider to
      get or create the user, marking the email verified unless the caller
      said otherwise. */
  lemma SuperuserRemoteDefaults(email: string, password: Option<string>, extra: map<string, Value>, env: Env, s: State)
    requires email != "" && !Truthy(GetOr(extra, "auth0user", Null))
    requires GetOr(extra, "is_staff", Bool(true)) == Bool(true) && GetOr(extra, "is_superuser", Bool(true)) == Bool(true)
    ensures var r := CreateSuperuser(email, password, extra, env, s);
      && s.effects <= r.state.effects
      && |Since(s, r.state)| > 0
      && Since(s, r.state)[0].RemoteGetOrCreate?
      && Since(s, r.state)[0].email == email
      && "email_verified" in Since(s, r.state)[0].defaults
      && Since(s, r.state)[0].defaults["email_verified"] == GetOr(extra, "email_verified", Bool(true))
      && "password" in Since(s, r.state)[0].defaults
      && Since(s, r.state)[0].defaults["password"] == TextValue(password)
  {
    var fields := SuperuserDefaults(extra, env.config);
    assert GetOr(fields, "auth0user", Null) == GetOr(extra, "auth0user", Null);
    CreateAsksProviderFirst(email, password, fields, env, s);
    var d := RemoteDefaults(GetOr(fields, "email_verified", Bool(false)), password, fields - PoppedKeys);
    assert d["email_verified"] == GetOr(extra, "email_verified", Bool(true));
  }
}

=== FILE: views.dfy ===
/** The login callback in auth0user/views.py: `authenticate`, which walks the
    configured backends looking up a local user by natural key, and `alogin`,
    which exchanges an authorization code for a token, fetches the provider's
    user information and logs the matching local user in. */
module Views {
  import opened Common
  import opened Users
  import opened Middleware

  /** An authentication backend: its dotted path and its `user_can_authenticate`. */
  datatype Backend = Backend(path: string, canAuthenticate: LocalUser -> bool)

  /** A local user annotated with the path of the backend that accepted it. */
  datatype AuthenticatedUser = AuthenticatedUser(user: LocalUser, backend: string)

  /** The index of the first backend that accepts `u`, or `|backends|` when none does. */
  function FirstAccepting(backends: seq<Backend>, u: LocalUser): (k: nat)
    ensures k <= |backends|
    ensures forall j | 0 <= j < k :: !backends[j].canAuthenticate(u)
    ensures k < |backends| ==> backends[k].canAuthenticate(u)
  {
    if backends == [] then 0
    else if backends[0].canAuthenticate(u) then 0
    else 1 + FirstAccepting(backends[1..], u)
  }

  /** The backend loop of `authenticate`: for each backend in turn the user
      is looked up by natural key on `site`; the first backend that accepts
      the found user wins. A lookup that matches several rows raises; one that
      matches none, or a user no backend accepts, yields `None`. */
  function TryBackends(backends: seq<Backend>, store: seq<LocalUser>, id: Value, site: Value)
    : (r: Result<Option<AuthenticatedUser>>)
    ensures r.Err? <==> |backends| > 0 && GetByNaturalKey(store, id, site).MultipleFound?
    ensures r.Err? ==> r.error == MultipleObjectsReturned
    ensures r.Ok? && r.value.Some? <==>
      GetByNaturalKey(store, id, site).Found?
      && FirstAccepting(backends, GetByNaturalKey(store, id, site).user) < |backends|
    ensures r.Ok? && r.value.Some? ==>
      var u := GetByNaturalKey(store, id, site).user;
      r.value.value == AuthenticatedUser(u, backends[FirstAccepting(backends, u)].path)
  {
    if backends == [] then Ok(None)
    else
      match GetByNaturalKey(store, id, site)
      case MultipleFound => Err(MultipleObjectsReturned)
      case DoesNotExist => TryBackends(backends[1..], store, id, site)
      case Found(u) =>
        if backends[0].canAuthenticate(u) then Ok(Some(AuthenticatedUser(u, backends[0].path)))
        else TryBackends(backends[1..], store, id, site)
  }

  /** `authenticate(auth0_id)`: Django's `_get_backends` refuses an empty
      backend list with ImproperlyConfigured; otherwise the backend loop runs. */
  function Authenticate(backends: seq<Backend>, store: seq<LocalUser>, id: Value, site: Value)
    : (r: Result<Option<AuthenticatedUser>>)
    ensures backends == [] ==> r == Err(ImproperlyConfigured)
    ensures r.Err? <==> backends == [] || GetByNaturalKey(store, id, site).MultipleFound?
    ensures backends != [] && r.Err? ==> r.error == MultipleObjectsReturned
    ensures r.Ok? && r.value.Some? <==>
      GetByNaturalKey(store, id, site).Found?
      && FirstAccepting(backends, GetByNaturalKey(store, id, site).user) < |backends|
    ensures r.Ok? && r.value.Some? ==>
      var u := GetByNaturalKey(store, id, site).user;
      r.value.value == AuthenticatedUser(u, backends[FirstAccepting(backends, u)].path)
  {
    if backends == [] then Err(ImproperlyConfigured)
    else TryBackends(backends, store, id, site)
  }

  /** A user is authenticated by the first backend that accepts it, whatever
      the later backends say. */
  lemma FirstBackendWins(b: Backend, rest: seq<Backend>, store: seq<LocalUser>, u: LocalUser)
    requires GetByNaturalKey(store, NaturalKey(u).0, NaturalKey(u).1) == Found(u)
    requires b.canAuthenticate(u)
    ensures Authenticate([b] + rest, store, NaturalKey(u).0, NaturalKey(u).1)
            == Ok(Some(AuthenticatedUser(u, b.path)))
  {
    assert ([b] + rest)[0] == b;
  }

  // ---------------------------------------------------------------------------
  // The login callback
  // ---------------------------------------------------------------------------

  /** The URLs the view resolves: the admin index, the admin login page and
      the callback's own path. */
  datatype Routes = Routes(adminIndex: string, adminLogin: string, callback: string)

  /** A POST to the token endpoint: URL, headers and the JSON body's fields. */
  datatype TokenRequest = TokenRequest(url: string, headers: map<string, string>, body: map<string, string>)

  /** The provider's HTTP API as the view uses it: the decoded JSON answers
      of the token exchange and of the user-info request. */
  datatype IdentityApi = IdentityApi(
    exchange: TokenRequest -> map<string, Value>,
    userInfo: string -> map<string, Value>)

  /** What the view does outside itself, in order. */
  datatype Call = TokenPost(request: TokenRequest) | UserInfoGet(url: string) | SessionLogin(user: AuthenticatedUser)

  /** `redirect_to_login(next, login_url)` or `redirect(to)`. */
  datatype Response = RedirectToLogin(next: string, loginUrl: string) | Redirect(location: string)

  datatype Outcome = Outcome(result: Result<Response>, calls: seq<Call>)

  const GrantType := "authorization_code"

  /** The token exchange request for `code`, built from the settings and the
      parameters the middleware attached: a JSON POST to the domain's token
      endpoint whose body carries exactly the five fields of an
      authorization-code grant, the code itself untouched. */
  function BuildTokenRequest(config: Config, params: ConnectionParams, callback: string, code: string)
    : (t: TokenRequest)
    ensures t.url == "https://" + config.domain + "/oauth/token"
    ensures t.headers.Keys == {"content-type"} && t.headers["content-type"] == "application/json"
    ensures t.body.Keys == {"client_id", "client_secret", "redirect_uri", "code", "grant_type"}
    ensures t.body["code"] == code
    ensures t.body["grant_type"] == "authorization_code"
    ensures t.body["client_id"] == config.clientId
    ensures t.body["client_secret"] == config.clientSecret
    ensures t.body["redirect_uri"] == params.redirectHost + callback
  {
    TokenRequest(
      "https://" + config.domain + "/oauth/token",
      map["content-type" := "application/json"],
      map[
        "client_id" := config.clientId,
        "client_secret" := config.clientSecret,
        "redirect_uri" := params.redirectHost + callback,
        "code" := code,
        "grant_type" := GrantType])
  }

  function UserInfoUrl(domain: string, token: Value): string
  {
    "https://" + domain + "/userinfo?access_token=" + Display(token)
  }

  /** `alogin(request)` against the provider API, the configured backends
      and the user table. */
  function Login(req: Request, routes: Routes, config: Config, api: IdentityApi,
                 backends: seq<Backend>, store: seq<LocalUser>): (o: Outcome)
    // Without a code the visitor is sent to the admin login page, whatever
    // else holds, and nobody is contacted.
    ensures ("code" !in req.query || req.query["code"] == "") ==>
      o == Outcome(Ok(RedirectToLogin(req.fullPath, routes.adminLogin)), [])
    // An already authenticated visitor is sent on to `state` (the admin index
    // by default) without contacting anyone.
    ensures "code" in req.query && req.query["code"] != "" && req.authenticated ==>
      o == Outcome(Ok(Redirect(if "state" in req.query then req.query["state"] else routes.adminIndex)), [])
    // The first call, when there is one, is the token exchange for the code.
    ensures |o.calls| > 0 ==>
      "code" in req.query && req.query["code"] != "" && !req.authenticated && req.auth0.Some?
      && o.calls[0] == TokenPost(BuildTokenRequest(config, req.auth0.value, routes.callback, req.query["code"]))
    // Without the parameters of the middleware the view fails before any call.
    ensures "code" in req.query && req.query["code"] != "" && !req.authenticated && req.auth0.None? ==>
      o == Outcome(Err(AttributeError("auth0")), [])
    // A token answer without an access token ends the view after the exchange,
    // and only such an answer does.
    ensures "code" in req.query && req.query["code"] != "" && !req.authenticated && req.auth0.Some? ==>
      var t := BuildTokenRequest(config, req.auth0.value, routes.callback, req.query["code"]);
      ("access_token" !in api.exchange(t) <==> o == Outcome(Err(KeyError("access_token")), [TokenPost(t)]))
    ensures |o.calls| == 1 ==> o.result == Err(KeyError("access_token"))
    // The session is logged in only as the last call, and only on success.
    ensures forall i | 0 <= i < |o.calls| && o.calls[i].SessionLogin? ::
      i == |o.calls| - 1 == 2 && o.result.Ok?
    // Every successful exchange ends in a redirect or an error.
    ensures o.result.Ok? && |o.calls| > 0 ==> |o.calls| == 3 && o.calls[2].SessionLogin?
  {
    var code := if "code" in req.query then req.query["code"] else "";
    var next := if "state" in req.query then req.query["state"] else routes.adminIndex;
    if code == "" then
      Outcome(Ok(RedirectToLogin(req.fullPath, routes.adminLogin)), [])
    else if req.authenticated then
      Outcome(Ok(Redirect(next)), [])
    else if req.auth0.None? then
      Outcome(Err(AttributeError("auth0")), [])
    else
      var tokenRequest := BuildTokenRequest(config, req.auth0.value, routes.callback, code);
      var tokenInfo := api.exchange(tokenRequest);
      if "access_token" !in tokenInfo then
        Outcome(Err(KeyError("access_token")), [TokenPost(tokenRequest)])
      else
        var url := UserInfoUrl(config.domain, tokenInfo["access_token"]);
        var userInfo := api.userInfo(url);
        var calls := [TokenPost(tokenRequest), UserInfoGet(url)];
        match Authenticate(backends, store, GetOr(userInfo, "user_id", Null), DefaultSite(config))
        case Err(e) => Outcome(Err(e), calls)
        case Ok(None) => Outcome(Err(PermissionDenied), calls)
        case Ok(Some(user)) => Outcome(Ok(Redirect(next)), calls + [SessionLogin(user)])
  }

  /** `alogin` as written: with a code, `request.user.is_authenticated()`
      calls the plain `True` of a logged-in `SiteUser` and raises TypeError
      before anyone is contacted; otherwise it is the view above. */
  function LoginAsWritten(req: Request, routes: Routes, config: Config, api: IdentityApi,
                         backends: seq<Backend>, store: seq<LocalUser>): (o: Outcome)
    ensures "code" in req.query && req.query["code"] != "" && req.authenticated ==>
      o == Outcome(Err(TypeError(NotCallable)), [])
    ensures ("code" !in req.query || req.query["code"] == "" || !req.authenticated) ==>
      o == Login(req, routes, config, api, backends, store)
  {
    if "code" in req.query && req.query["code"] != "" && req.authenticated then
      Outcome(Err(TypeError(NotCallable)), [])
    else Login(req, routes, config, api, backends, store)
  }

  /** A callback with a code from a logged-in `SiteUser`: as written the
      middleware raises TypeError and the view is never reached, and the view
      reached directly raises it too; corrected, the request passes untouched
      and the view redirects to `state` without contacting anyone. */
  lemma AuthenticatedCallbackRaisesAsWritten(req: Request, routes: Routes, config: Config, api: IdentityApi,
                                             backends: seq<Backend>, store: seq<LocalUser>)
    requires "code" in req.query && req.query["code"] != "" && req.authenticated
    ensures var view := (r: Request) => LoginAsWritten(r, routes, config, api, backends, store);
      ConnectionMiddlewareAsWritten<Outcome>(req, config, view) == Middleware.Handled(Err(TypeError(NotCallable)), [])
    ensures LoginAsWritten(req, routes, config, api, backends, store).result == Err(TypeError(NotCallable))
    ensures var h := ConnectionMiddleware<Outcome>(req, config, (r: Request) => Login(r, routes, config, api, backends, store));
      && h.forwarded == [req]
      && h.response == Outcome(Ok(Redirect(if "state" in req.query then req.query["state"] else routes.adminIndex)), [])
  {
  }

  /** The login decision: once the provider has issued a token, the view logs
      in exactly the user `authenticate` returns for the provider's `user_id`
      and redirects to `state` (the admin index by default); if
      `authenticate` returns nobody, permission is denied. */
  lemma LoginLogsInAuthenticatedUser(req: Request, routes: Routes, config: Config, api: IdentityApi,
                                     backends: seq<Backend>, store: seq<LocalUser>)
    requires "code" in req.query && req.query["code"] != "" && !req.authenticated && req.auth0.Some?
    requires "access_token" in api.exchange(BuildTokenRequest(config, req.auth0.value, routes.callback, req.query["code"]))
    ensures var o := Login(req, routes, config, api, backends, store);
      var token := api.exchange(BuildTokenRequest(config, req.auth0.value, routes.callback, req.query["code"]))["access_token"];
      var url := UserInfoUrl(config.domain, token);
      var a := Authenticate(backends, store, GetOr(api.userInfo(url), "user_id", Null), DefaultSite(config));
      && |o.calls| >= 2
      && o.calls[1] == UserInfoGet(url)
      && (a == Ok(None) ==> o.result == Err(PermissionDenied) && |o.calls| == 2)
      && (a.Err? ==> o.result == Err(a.error) && |o.calls| == 2)
      && (a.Ok? && a.value.Some? ==>
            && o.calls[2] == SessionLogin(a.value.value)
            && o.result == Ok(Redirect(if "state" in req.query then req.query["state"] else routes.adminIndex)))
  {
  }

  /** Behind the middleware, an unauthenticated callback asks the provider to
      redirect back to the very scheme and host the request came in on,
      followed by the callback path. */
  lemma CallbackRedirectsToRequestHost(req: Request, routes: Routes, config: Config, api: IdentityApi,
                                       backends: seq<Backend>, store: seq<LocalUser>)
    requires "code" in req.query && req.query["code"] != "" && !req.authenticated
    ensures var h := ConnectionMiddleware<Outcome>(req, config, (r: Request) => Login(r, routes, config, api, backends, store));
      var o := h.response;
      && |o.calls| > 0
      && o.calls[0].TokenPost?
      && o.calls[0].request.body["redirect_uri"] == req.scheme + "://" + req.host + routes.callback
  {
    var d := Decorate(req, config);
    assert d.auth0.Some?;
    var o := Login(d, routes, config, api, backends, store);
    assert o.calls[0] == TokenPost(BuildTokenRequest(config, d.auth0.value, routes.callback, req.query["code"]));
  }

  /** A provider user whose local row carries its id as `auth0_id` is still
      refused: the lookup matches the email column, not the provider id. */
  lemma ExternalIdDoesNotLogIn(req: Request, routes: Routes, config: Config, api: IdentityApi,
                               backends: seq<Backend>, u: LocalUser)
    requires "code" in req.query && req.query["code"] != "" && !req.authenticated && req.auth0.Some?
    requires backends != []
    requires u.auth0Id == "auth0|42" && u.email == "a@b.com" && u.site == DefaultSite(config)
    requires var t := api.exchange(BuildTokenRequest(config, req.auth0.value, routes.callback, req.query["code"]));
      "access_token" in t && api.userInfo(UserInfoUrl(config.domain, t["access_token"])) == map["user_id" := Str("auth0|42")]
    ensures Login(req, routes, config, api, backends, [u]).result == Err(PermissionDenied)
  {
    LookupIgnoresExternalId(u, DefaultSite(config));
  }
}
